=== FILE: README.md ===
# Fish boids with evolution and social learning: a Dafny model

This project models the core of a predator–prey boid simulation. In it, fish
flock, feed at food points, breed with a genetic algorithm, learn from elder
fish, starve, and are hunted by a single predator. Every entity lives on a
spatial hash grid, and all neighbourhood queries go through that grid.

The model covers:

- the spatial grid (`BoidGrid.py`): cell coordinates, adding, removing,
  wiping and relocating an entity, and the three box queries (neighbours,
  flock test, partner);
- the food point (`FoodPoint.py`): the feeding loop and the
  activation/cool-down state machine;
- the fish (`FishBoid.py`): construction from explicit random draws,
  inheritance, mutation and clipping, social learning, the reproduction
  timer, reproduction, and the hunger, age, move-and-clamp and grid parts of
  `update`;
- the predator (`PredatorBoid.py`): the closest-fish scan, eating within
  reach, the chase pull, edge reflection, the speed limit, and the
  clamp-and-refile move;
- the bookkeeping of `simulate` (`main.py`):
  - the set-up
  - the elder and juvenile marks
  - the food loop
  - the pass over the fish list (starvation, iteration over a list that
    shrinks and grows)
  - the predator's meal
  - the death counters and records
  - the clearing of juvenile marks
  - the `while running` loop

Design decisions:

- **Arena of fish.** A fish is named by its index in an arena of every fish
  ever created (`Entity = FishRef(id) | PredatorRef`). A child's index is the
  arena length at its birth. The population list `fishes` holds arena
  indices in the source's list order.
- **Grid invariants.** Identity comparisons in the source (`fish in cell`,
  `list.remove`) become value comparisons on these ids. The invariant
  `WorldOk` keeps them meaningful: the grid names only arena fish, and the
  list has no duplicates. It also carries two facts every tick keeps. Every
  fish's genes stay inside their clip ranges. The grid files each creature
  where it is (`Simulate.Filed`): a fish is filed nowhere, or exactly once
  under its current position and then on the list, and the predator is
  filed exactly once under its position.
- **Randomness and square roots.** Randomness (numpy draws, Gaussian
  mutation noise) comes in as parameters. `math.dist` and `np.sqrt` are
  replaced by a witness length whose square is the exact squared length, so
  distance comparisons become comparisons of squares.
- **Steering.** The float steering of a fish (separation, cohesion,
  alignment, edge field, food pull, predator push, noise, speed limit) is
  summarised by the velocity it produces. That velocity is an input to the
  fish's update.
- **Numbers.** Reals are exact; integers are unbounded. Python's `int()`
  truncates toward zero (`Common.Trunc`). `np.clip` is `min(max(v, lo), hi)`
  (`Common.Clip`). Python's `//` with a positive divisor agrees with Dafny's
  `/`.
- **Juvenile slice.** `int(len * 0.8)` equals `(4 * len) / 5`. For the list
  lengths that occur, the float product is never below the exact product,
  and it stays below the next integer.

### Behaviour of the code worth knowing

The model follows the code in each of these cases.

- **Partner choice.** The comments call the partner "the first
  neighbouring fish" (FishBoid.py:107) and the "closest fish"
  (BoidGrid.py:84). `getPartner` returns the first entity of the 7x7 box in
  raster order, whatever it is (BoidGrid.py:85-96). When that entity is the
  predator or the caller itself, there is no child that tick
  (FishBoid.py:113). There is no search further on.
- **Removal during iteration.** The fish loop removes a starved fish from
  the list it is iterating over (main.py:95-99). So the fish right after a
  starved one is not updated that tick (`Simulate.StarvationSkipsNext`).
  Children appended during the loop are reached in the same pass.
- **Row 0 and column 0.** The three box queries test `0 < r < rows` and
  `0 < c < columns` (BoidGrid.py:63, 78, 92). Entities filed only in row 0
  or column 0 appear in no query, while the last row and column are scanned
  (`BoidGrid.EdgeCellsInvisible`).
- **Food cool-down.** The comment at FoodPoint.py:14 gives the time-out as
  the number of ticks a point stays disabled. The tick that empties a point
  ends with a second `checkActive` (FoodPoint.py:25-26), so the clock
  already reads 1 afterwards. The point is back on the 2799th tick after
  that one (`Food.Cooldown`).
- **Fish that are filed nowhere.** The grid receives no fish when the
  population is built (main.py:36; the fish constructor never calls
  `addFish`). A newborn is not filed either: it is only appended to the list
  (FishBoid.py:135). `updateFish` adds under the new position and then
  removes under the old one (BoidGrid.py:50-52). So a fish that has not yet
  changed cell stays filed nowhere, and its first update that crosses into
  another cell files it exactly once (`BoidGrid.UnfiledRelocate`). Until
  then the fish is in no neighbour list (`BoidGrid.UnfiledInvisible`). No
  food point feeds it, the predator does not see it, and no fish takes it
  as a partner. It still ages, goes hungry and can starve.
- **Every meal is counted.** The predator only sees filed fish, and a filed
  fish is on the list. So the membership test at main.py:109 always
  passes, and every fish the predator eats is removed, counted and recorded
  (`Simulate.HuntedOk`, `Simulate.PredatorPhase`).
- **Fish loop termination.** `for fish in fishes` also visits children
  appended during the loop (main.py:95-96). With a reproduction threshold
  of 0, the timer fires on every update (FishBoid.py:162), including a
  child's first one. So every visited fish can append another child, and
  the loop need not end. The model's fish pass consumes one input per
  update (`Simulate.FishPass`), so it ends with its inputs.

## Model

| member | source | states |
|---|---|---|
| Common.Clip | FishBoid.py:308-313 | `np.clip`: a value inside the bounds is kept and one outside lands on the bound it crossed; when the bounds cross, the upper bound wins |
| Common.ClipInt | BoidGrid.py:21-22 | the same clip on integers, as applied to raw cell indices |
| Common.ClampInto | FishBoid.py:186-189 | clamping a position to the padded window keeps it under the upper bounds, above the padding when the extent is at least twice the padding, and unchanged when it is already inside |
| Common.Trunc | BoidGrid.py:19-20 | `int()` on a float truncates toward zero: the result is the integer band below a non-negative value and the band above a negative one |
| Seqs.RemoveFirst | BoidGrid.py:30-31 | `list.remove`: exactly one copy of the value is taken out (as a multiset), the list is cut at the first occurrence, and an absent value leaves the list as it was |
| Seqs.RemoveFirstDistinct | main.py:99 | removing a listed value from a duplicate-free list removes exactly its position, keeps the list duplicate-free and leaves no copy behind |
| BoidGrid.New | BoidGrid.py:4-10 | rows come from `window[0]` and columns from `window[1]`; each count is the number of whole cells that fit, one more cell would not fit, and every cell starts empty |
| BoidGrid.CellIndex | BoidGrid.py:19-22 | one coordinate of `cell_coords` always names an existing row or column |
| BoidGrid.CellIndexBand | BoidGrid.py:17-23 | the index is the cell whose band holds the coordinate inside the gridded span; anything before the first band maps to cell 0, and anything from the last band on maps to the last cell |
| BoidGrid.CellCoords | BoidGrid.py:17-23 | `cell_coords` gives an in-bounds `(row, column)`, the row from `y` and the column from `x` |
| BoidGrid.AddFish | BoidGrid.py:46-48 | the entity is appended to the end of its position's cell and no other cell changes |
| BoidGrid.RemoveFish | BoidGrid.py:26-31 | the cell of the given position (or of the entity's own position when none is given) loses the first occurrence of the entity and keeps the rest in order, so exactly one copy leaves; nothing changes when it is not there; other cells are untouched |
| BoidGrid.AddThenRemove | BoidGrid.py:26-48 | `removeFish` undoes `addFish`: adding an entity its cell does not hold and then removing it at the same position gives back exactly the original grid |
| BoidGrid.WipeFish | BoidGrid.py:34-42 | every cell loses the first copy of the entity and keeps the rest in order, so every other entity keeps its count; an entity filed at most once per cell is gone from the whole grid |
| BoidGrid.UpdateFish | BoidGrid.py:50-52 | an entity filed exactly once under its old position ends up filed exactly once under its new position, including when both are the same cell; no other entity's filing changes |
| BoidGrid.AddUnfiled | BoidGrid.py:46-48 | filing an entity that is filed nowhere files it exactly once, under the given position |
| BoidGrid.UnfiledRelocate | BoidGrid.py:45-52 | an entity filed nowhere stays filed nowhere while an update keeps it in one cell, and is filed exactly once, in its new cell, by the first update that crosses a cell boundary |
| BoidGrid.RelocateCell | BoidGrid.py:50-52 | cell by cell, add-then-remove adds one copy under the new position and takes one away under the old position |
| BoidGrid.RelocateSingle | BoidGrid.py:50-52 | the add-then-remove sequence keeps a singly filed entity singly filed, at its new cell, and leaves everyone else in place |
| BoidGrid.RelocateMoves | BoidGrid.py:50-52 | a singly filed entity moves from its old cell to its new cell |
| BoidGrid.RelocateOthers | BoidGrid.py:50-52 | relocating one entity does not change any other entity's count in any cell |
| BoidGrid.MoveFish | PredatorBoid.py:93-101 | the predator's remove-then-add keeps it filed exactly once, under its new position, and changes no other entity's filing |
| BoidGrid.MoveCell | PredatorBoid.py:93-101 | cell by cell, remove-then-add takes one copy away under the old position and adds one under the new position |
| BoidGrid.MoveSingle | PredatorBoid.py:93-101 | the remove-then-add sequence keeps a singly filed entity singly filed and leaves everyone else in place |
| BoidGrid.MoveMoves | PredatorBoid.py:93-101 | a singly filed entity moves from its old cell to its new cell |
| BoidGrid.MoveOthers | PredatorBoid.py:93-101 | moving one entity does not change any other entity's count in any cell |
| BoidGrid.AddKeepsRefs | BoidGrid.py:46-48 | adding an existing fish or the predator keeps every filed fish an existing one |
| BoidGrid.RemoveKeepsRefs | BoidGrid.py:26-31 | removal keeps every filed fish an existing one |
| BoidGrid.WipeKeepsRefs | BoidGrid.py:34-42 | wiping keeps every filed fish an existing one |
| BoidGrid.UpdateKeepsRefs | BoidGrid.py:50-52 | relocation keeps every filed fish an existing one |
| BoidGrid.MoveKeepsRefs | PredatorBoid.py:93-101 | the predator's move keeps every filed fish an existing one |
| BoidGrid.InScanRow | BoidGrid.py:59-64 | an entity is in one row's scan exactly when it is filed in a qualifying cell of that row segment |
| BoidGrid.InScanBox | BoidGrid.py:59-64 | an entity is in a box scan exactly when it is filed in a qualifying cell of the box |
| BoidGrid.NeighbourMembership | BoidGrid.py:56-67 | `get_neighbour` returns exactly the entities filed in a qualifying cell within `k` rows and `k` columns of the centre's cell |
| BoidGrid.AroundMembership | BoidGrid.py:56-67 | the same membership characterisation for a box around any cell |
| BoidGrid.NeighboursIncludeOwnCell | BoidGrid.py:63-64 | a caller whose own cell qualifies is among its own neighbours |
| BoidGrid.UnfiledInvisible | BoidGrid.py:56-96 | an entity filed nowhere is in no neighbour list and is nobody's partner |
| BoidGrid.EdgeCellsInvisible | BoidGrid.py:63 | the strict `0 < r` and `0 < c` tests make an entity filed only in row 0 or column 0 invisible to every neighbour and partner query |
| BoidGrid.GetNeighbour | BoidGrid.py:56-67 | the double loop returns the raster-order concatenation of the qualifying cells of the box |
| BoidGrid.CollectBox | BoidGrid.py:59-64 | the outer loop concatenates the box row by row |
| BoidGrid.CollectRow | BoidGrid.py:60-64 | the inner loop concatenates one row of the box, left to right |
| BoidGrid.CountFlock | BoidGrid.py:70-82 | despite the early exit, `count_flock` is true exactly when the 5x5 box holds more than three entities |
| BoidGrid.CountBox | BoidGrid.py:74-82 | the early-exit count over a box answers whether the whole box holds more entities than the threshold |
| BoidGrid.CountRows | BoidGrid.py:74-81 | the outer counting loop from a given row on decides the same threshold question for the whole box |
| BoidGrid.CountRow | BoidGrid.py:75-81 | the inner counting loop reports whether the count through its row passes the threshold, and otherwise returns that exact count |
| BoidGrid.GetPartner | BoidGrid.py:85-96 | `getPartner` returns the first entity of the 7x7 box in raster order, or nothing when the box is empty; this is not necessarily the nearest entity, and it may be the caller itself |
| BoidGrid.FirstInBox | BoidGrid.py:88-96 | the early-exit scan finds the first element of the whole box |
| BoidGrid.FirstInRow | BoidGrid.py:89-95 | the inner scan finds the first element of the first non-empty qualifying cell of a row |
| BoidGrid.WorkedExample | BoidGrid.py:4-23 | a 100x100 window with 15-pixel cells has 6x6 cells; (7, 7) is in cell (0, 0), and (95, 95), whose unclipped index is 6, is in cell (5, 5) |
| FishBoid.RoundHalfEven | FishBoid.py:52 | `np.round` gives an integer within one half of the value, and the even one on a tie |
| FishBoid.NewFish | FishBoid.py:9-60 | a new fish has the drawn genes, velocity, hunger and timer, and the given flags, reproduction time and window; its genes are in range and its hunger threshold is the rounded product of the maximum hunger and its hunger gene, strictly below the maximum hunger (at most 1805); its hunger is in [1500, 1900), its timer in [0, 300) and its age 0; it is unmarked; its position lies in the drawn fractions of the swapped window |
| FishBoid.StartPos | FishBoid.py:13 | the start position lies between 0.1 and 0.9 of the width and between 0 and 0.9 of the height |
| FishBoid.Inherit | FishBoid.py:318-338 | `inherit` compares the gene index (not the drawn chance) with 0.25: gene 0 comes from the younger-or-equal parent and genes 1..5 from the other parent; with equal ages the partner provides genes 1..5 |
| FishBoid.InheritKeepsRange | FishBoid.py:318-338 | children of in-range parents are in range before mutation |
| FishBoid.OlderParentGivesFiveGenes | FishBoid.py:323-337 | whichever parent asks, the child has the younger parent's first gene and the older parent's other five |
| FishBoid.TournamentGA | FishBoid.py:301-315 | for any noise the child genotype is in range: a mutated gene inside its range is kept exactly, and one outside lands on the bound it crossed |
| FishBoid.TournamentWithoutNoise | FishBoid.py:301-315 | with zero noise and in-range parents, the tournament is plain inheritance (the clip is a no-op) |
| FishBoid.Learn | FishBoid.py:351-358 | each gene's gap to the elder shrinks by the factor 0.9997, and the new gene lies between the old value and the elder's |
| FishBoid.LearnKeepsRange | FishBoid.py:351-358 | learning between in-range genotypes stays in range, and learning from an identical genotype changes nothing |
| FishBoid.LearnFrom | FishBoid.py:150-153 | learning in turn from every elder in the neighbour list keeps six in-range genes |
| FishBoid.TimerStep | FishBoid.py:162-166 | the timer fires exactly when it has reached the reproduction time, then restarts at 0; otherwise it counts up by one; a timer in [0, T] stays there |
| FishBoid.RunTimerCountsUp | FishBoid.py:165-166 | below the threshold, n ticks just add n to the timer without firing |
| FishBoid.TimerPeriod | FishBoid.py:162-166 | starting from 0, the timer fires exactly once per T + 1 ticks and is back at 0 after each whole period |
| FishBoid.Reproduce | FishBoid.py:111-137 | a child is born exactly when the partner is a fish other than self; the child stands at the parents' midpoint; its genes are the tournament's when evolution is on and its own drawn genes otherwise; its hunger threshold comes from its own drawn gene; it is unmarked, aged 0, and shares the parent's window and reproduction time |
| FishBoid.LearnPhase | FishBoid.py:146-153 | only a juvenile fish with evolution on changes its genes, and it stays in range |
| FishBoid.BreedPhase | FishBoid.py:161-166 | a child only comes from a firing timer, after which the timer is 0; when the timer fires, the outcome is `reproduce`'s |
| FishBoid.Update | FishBoid.py:140-193 | hunger down by one, age up by one, the supplied velocity, the position clamped to the padded swapped window, relocation in the grid keyed on the pre-update position, marks and threshold unchanged; the genes are those the learning phase produces (in range); the timer counts up or, at the threshold, resets to 0; when it fires, the child is exactly what `reproduce` gives for the fish with its lowered hunger and learnt genes, and there is no child otherwise |
| FishBoid.UpdateKeepsArenaRefs | FishBoid.py:191 | after a fish's update the grid still names only existing fish |
| FishBoid.UpdateRelocates | FishBoid.py:191 | a fish filed exactly once under its position is filed exactly once under its new position, and nobody else moves |
| FishBoid.UpdateStaysInside | FishBoid.py:186-189 | whatever the velocity, the fish ends at least 20 pixels inside the window (given a window at least 40 pixels each way) |
| Food.NewFood | FoodPoint.py:5-16 | a new point sits at the given position with the given maximum and size, is active, full and has its clock at zero, and satisfies the food invariant (for a positive maximum, a switched-on point has food) |
| Food.CheckActive | FoodPoint.py:29-38 | an empty active point switches off with its clock at 0; an inactive point ticks its clock and comes back on, refilled, once the clock reaches 2800; an active point with food left is untouched |
| Food.CheckActiveSound | FoodPoint.py:29-38 | `checkActive` keeps the food invariant: never more than the maximum, an off point's clock below the time-out, and for a positive maximum a capacity that is never negative and positive while switched on |
| Food.Feed | FoodPoint.py:21-25 | only an active point feeds; capacity drops by the number fed; each fish is either unchanged or was listed and hungry and is now at maximum hunger; the predator is skipped; a point with food feeds at most its capacity |
| Food.FeedFeedsAllHungry | FoodPoint.py:21-25 | the converse of `Feed`'s contract: when the point is still on after the pass, every listed fish that was hungry has been fed to maximum hunger |
| Food.FeedOncePerFish | FoodPoint.py:21-25 | when no threshold exceeds the maximum hunger, a fish listed several times is fed at most once: every meal changes a different fish, so the number fed equals the number of fish whose record changed, and is at most the number of distinct hungry fish listed |
| Food.DetectFish | FoodPoint.py:19-26 | `detectFish` feeds only hungry fish listed around the point's own cell, and an active point that stays on feeds all of them; it keeps the food invariant, so for a positive maximum the capacity stays within `[0, max]` and a point left on still has food; an active point that runs out is off afterwards, and an inactive point just ticks its clock |
| Food.IdleCountsUp | FoodPoint.py:33-36 | before the time-out, n idle ticks only advance the clock by n |
| Food.Cooldown | FoodPoint.py:29-38 | a point switched off during a tick is still off after 2798 more ticks and is back on, refilled, on the 2799th |
| Food.InactiveDetectIsIdle | FoodPoint.py:19-26 | on a switched-off point, `detectFish` feeds nobody and is one tick of `checkActive` |
| PredatorBoid.NewPredator | PredatorBoid.py:7-20 | the predator starts at (100, 100) with velocity (1.6, 1.6) and no target, is filed once more in its start cell and no other cell changes; on a grid without a predator it is then filed in exactly one cell |
| PredatorBoid.ClosestIn | PredatorBoid.py:26-37 | the scan picks a listed fish strictly nearer than 10000 whose distance is at most every listed fish's; on ties the first listed wins; the predator's own entry is skipped |
| PredatorBoid.Closest | PredatorBoid.py:24-37 | `get_closest_fish` returns a visible fish at the minimum distance, or nothing when every visible fish is at 10000 or beyond; the reported distance is that fish's distance or 10000 |
| PredatorBoid.ChasePullsTowardTarget | PredatorBoid.py:52-62 | the chase adds a pull of length exactly 0.5 pointing straight at the target |
| PredatorBoid.AvoidEdges | PredatorBoid.py:78-83 | a velocity component is reflected and nudged by 0.01 exactly when its coordinate is within 10 pixels of either edge |
| PredatorBoid.AvoidEdgesInvolution | PredatorBoid.py:78-83 | reflecting twice at the same place restores the velocity |
| PredatorBoid.AvoidEdgesTurnsBack | PredatorBoid.py:78-83 | near the low edge an outward component is turned inward; near the high edge likewise, once the component exceeds the nudge |
| PredatorBoid.SpeedLimit | PredatorBoid.py:66-75 | a speed above 1.82 becomes 1.82 and a nonzero speed below 1.2 becomes 1.2; otherwise the velocity is kept; the direction is always kept |
| PredatorBoid.SpeedLimitBand | PredatorBoid.py:66-75 | after the limit a moving predator's speed lies in [1.2, 1.82], and a standing predator stays standing |
| PredatorBoid.SpeedLimitIdempotent | PredatorBoid.py:66-75 | limiting an already limited velocity changes nothing |
| PredatorBoid.Update | PredatorBoid.py:86-101 | a fish within reach is wiped from the grid and returned, and the predator neither moves nor steers; otherwise the predator records its target, steers, is speed-limited, moves, is clamped 9 pixels inside the window and is re-filed |
| PredatorBoid.EatsIffWithinReach | PredatorBoid.py:43-50 | the predator eats exactly when the nearest visible fish is closer than 20 pixels, and the eaten fish was visible |
| PredatorBoid.EatenLeavesGrid | PredatorBoid.py:47-50 | an eaten fish filed at most once per cell is gone from the grid, and no other entity's filing changes |
| PredatorBoid.MoveKeepsPredatorFiled | PredatorBoid.py:93-101 | a moving predator filed once under its old position is filed once under its new one, and no fish's filing changes |
| PredatorBoid.PredatorStaysInside | PredatorBoid.py:97-100 | a moving predator ends at least 9 pixels inside the window |
| PredatorBoid.UpdateKeepsArenaRefs | PredatorBoid.py:86-101 | after the predator's tick the grid still names only existing fish |
| Simulate.StartGrid | main.py:29-42 | the initial grid is usable and holds no fish (fish constructors do not file themselves); the predator starts at (100, 100) with no target |
| Simulate.Population | main.py:36 | one new fish per draw, none marked, all with in-range genes |
| Simulate.FoodPoints | main.py:33 | one point per location, with the location pair swapped into `(x, y)`: active, sound, holding its full 40 units, clock at zero, radius two |
| Simulate.NewWorld | main.py:29-50 | the set-up satisfies the structural invariant and conservation, has no marks, zero counters and clock, an empty record list, and no fish in the grid |
| Simulate.MarkElders | main.py:67-70 | exactly the listed fish become elders, and everything else is unchanged |
| Simulate.MarkJuveniles | main.py:73-76 | exactly the listed fish get the juvenile flag, and everything else is unchanged |
| Simulate.EldersMeaning | main.py:67-68 | the elder slice is a prefix of the list whose length is the whole number of tenths of the list length (`len // 10`) |
| Simulate.JuvenilesMeaning | main.py:73-74 | the juvenile slice is a suffix of the list starting at the truncation of `len * 0.8`: the start index is at most the product and more than the product minus one |
| Simulate.SlicesDisjoint | main.py:67-76 | the two slices of a duplicate-free list never share a fish and together fit in the list |
| Simulate.FeedAll | main.py:81-82 | after all points have detected in turn, each fish is unchanged or was hungry and is now full, every point stays sound, and the points keep their positions |
| Simulate.FedFromTrans | main.py:81-82 | two feedings in a row still feed each fish at most once, and only a hungry fish |
| Simulate.GenerationIsBirthEpoch | main.py:113 | the meal statistic's generation is the 2700-tick epoch holding the birth tick `Time - age` |
| Simulate.StarvedGenerationMismatch | main.py:102 | the starvation statistic as written disagrees with the birth epoch (see Findings) |
| Simulate.RefileKeepsFiled | BoidGrid.py:50-52 | one listed fish's re-filing keeps the filing invariant: filed nowhere it stays nowhere or is filed once under its new position, filed once it moves with its position, and no other creature's filing changes |
| Simulate.NewcomerKeepsFiled | FishBoid.py:135 | a child appended to the arena and the list, but not to the grid, keeps the filing invariant as a fish filed nowhere |
| Simulate.WipeKeepsFiled | BoidGrid.py:34-42 | wiping a fish of the arena leaves it filed nowhere and every other creature filed as before |
| Simulate.DropKeepsFiled | main.py:97-99 | a fish filed nowhere can leave the list without breaking the filing invariant |
| Simulate.HuntedOk | PredatorBoid.py:40-50 | the predator's tick keeps the invariant; a fish it eats was on the list (the grid files only listed fish and the predator only sees filed ones) and is filed nowhere afterwards |
| Simulate.Adopt | FishBoid.py:135 | the updated fish and its grid are stored, and a child is appended to the arena and the list but not to the grid |
| Simulate.Bury | main.py:97-103 | a starved fish is wiped from the grid, cut out of the list at its position, counted, and recorded with the generation as main.py:102 computes it and its age in seconds |
| Simulate.BuryCorrected | main.py:97-103 | the same burial, except that the record's generation is the 2700-tick epoch of the fish's birth tick |
| Simulate.Settle | main.py:95-103 | the bookkeeping after one fish's update keeps the invariant, the clock, the meal count, the food, the predator, conservation and every existing fish's marks, and only grows the starvation count |
| Simulate.SettleEffect | main.py:95-103 | the child is appended to the list; a starved fish is removed from its position and the starvation count goes up by one |
| Simulate.StarvationSkipsNext | main.py:95-99 | after a removal, the list iterator's next position holds the fish two places on, so the fish right after a starved one is skipped this tick |
| Simulate.FishPass | main.py:95-103 | the whole pass (which also reaches children appended during it) keeps the invariant, conservation and marks, and leaves clock, meal count, food and predator alone |
| Simulate.Devour | main.py:108-114 | the eaten fish, already filed nowhere, leaves the list (exactly one copy), is counted and is recorded with its birth epoch and age in seconds; the invariant is kept |
| Simulate.PredatorPhase | main.py:106-114 | with the true lengths, the grid and predator become those of the predator's update; a meal is counted exactly when the update names a fish, which was on the list, is then removed and recorded, and is in no cell of the grid; otherwise the list and records are untouched |
| Simulate.MarkAges | main.py:59-76 | the clock goes up by one; the first tenth of the list become elders, the last fifth juveniles, and nothing else changes |
| Simulate.FeedPhase | main.py:81-82 | the food loop changes only fish hunger and the points; every fish is fed at most once; marks are kept |
| Simulate.Prelude | main.py:58-82 | the start of a tick advances the clock, sets the marks and feeds, without touching the list or the counters |
| Simulate.Unmark | main.py:144-145 | exactly the juvenile slice from the start of the tick loses its juvenile flag |
| Simulate.Play | main.py:94-114 | the fish pass and the predator keep the invariant, conservation and marks; the clock is unchanged, at most one fish is eaten, and starvations only grow |
| Simulate.MainPhase | main.py:94-145 | after the fish pass, the predator and the unmarking, the tick's marks hold and the counters only grow, by at most one meal |
| Simulate.Tick | main.py:58-145 | one tick keeps the invariant and conservation, advances the clock by one, continues exactly when the list was non-empty at its start, makes at most one meal, keeps every elder an elder, and leaves no juvenile marks behind |
| Simulate.Run | main.py:58-145 | the loop keeps the invariant, conservation and the absence of juvenile marks; clock, counters and arena only grow, the clock by at most one per tick |

## Left out

- Rendering: pygame, the window, drawing shapes, colours (including the
  child's colour blend at FishBoid.py:116-117), fonts and the frame clock.
  These are I/O.
- The quit event (main.py:60-62). It is an external input. The model's loop
  stops only when the list is empty or the inputs run out.
- The statistics display at main.py:119-141. It is drawing only. On an empty
  list with no earlier oldest fish it would read an attribute of `None`;
  that crash is not modelled.
- The float steering of a fish: `Separation`, `Alignment`, `Cohesion`,
  `Combining_Steers`, `goToFood`, `avoidEdge`, `avoidPredator`, the fish's
  `speed_limit` and the stochastic velocity noise. They are floating-point
  vector arithmetic with square roots and random draws. Their net effect is
  the velocity parameter of `FishBoid.Update`.
- Random draws: the constructor's uniform and integer draws (`Draws`) and
  the Gaussian mutation noise. They enter as parameters with the source's
  ranges. The draw of `chance` in `inherit` is never read, so it does not
  appear.
- `math.dist` and `np.sqrt`: supplied as witness lengths. The predator's
  update takes `dist` and `speed` whose squares equal the exact squared
  lengths. Float rounding in these and all other real computations is not
  modelled.
- The fish constructor call at main.py:36 passes six arguments, but the
  constructor at FishBoid.py:9 takes seven (`reproduce_time`). As written,
  that line would raise a `TypeError`. The model supplies the reproduction
  time as a parameter of the set-up.
- `giveFishList` (BoidGrid.py:13-14). A child is appended to the population
  list directly (`Simulate.Adopt`) instead of through the grid's reference
  to that list.
- Simulate.Tick: returns `None` when the supplied inputs do not fit the
  world. This happens when there are fewer fish inputs than updates, or when
  the predator's lengths are not the true ones. Its contract therefore speaks
  only of ticks whose inputs fit.
- Simulate.Run: stops at the first tick whose inputs do not fit, or when the
  inputs run out, whereas the source loops until quit or an empty list.
  Within a tick, the source's fish loop need not end at all: with a
  reproduction threshold of 0, every visited fish, children included, can
  append another child. The model's pass ends with its inputs instead.
- Simulate.StartGrid: requires a window at least one cell wide and high. The
  source accepts smaller windows, but then any grid access would index an
  empty list.
- Food.FeedOncePerFish: assumes that no hunger threshold exceeds the maximum
  hunger. Every constructed fish satisfies this (`FishBoid.NewFish`). A fish
  with a higher threshold would stay hungry after a meal and could be fed
  again from the same list.
- PredatorBoid.PredatorStaysInside and FishBoid.UpdateStaysInside: assume a
  window at least twice the padding in each direction. For a smaller window,
  `np.clip` returns the upper bound, which lies below the padding.

## Findings

| source | as written | input that shows it | evidently intended | confidence | as-written member | corrected member |
|---|---|---|---|---|---|---|
| main.py:102 | the starved fish's generation is `(Time - fish.age // 60) // 2700`, which subtracts the age in seconds from a clock in ticks | `Time` 6000 and age 5400 ticks (born at tick 600) give generation 2 | the 2700-tick epoch of the birth tick, `(Time - age) // 2700`, as the meal statistic at main.py:113 computes it; here it is 0 | not executed | Simulate.StarvedGenerationAsWritten (used by Simulate.Bury; shown by Simulate.StarvedGenerationMismatch) | Simulate.BuryCorrected (its record's generation is the birth epoch, via Simulate.Generation and Simulate.GenerationIsBirthEpoch) |

=== FILE: common.dfy ===
/** Shared vocabulary of the fish simulation: optional values, plane vectors,
    the window, entity references and the numpy/Python numeric helpers the
    source relies on (np.clip and int() truncation). */
module Common {

  /** Python's `None`-or-object, as the conventional Some/None datatype. */
  datatype Option<+T> = None | Some(value: T)

  /** A position or a velocity in the plane. */
  datatype Vec = Vec(x: real, y: real)

  /** The window tuple handed to the simulation, in the order it is given
      (`window[0]`, `window[1]`). The grid derives its rows from `w0` and its
      columns from `w1`; fish and predator swap the two for their own bounds. */
  datatype Window = Window(w0: nat, w1: nat)

  /** What a grid cell holds. A fish is named by its index in the arena of all
      fish ever created; there is exactly one predator. This closed tag takes
      the place of the source's `isinstance` tests. */
  datatype Entity = FishRef(id: nat) | PredatorRef

  /** `np.clip(v, lo, hi)`, which numpy computes as `min(max(v, lo), hi)`:
      when the bounds are crossed the upper one wins. */
  function Clip(v: real, lo: real, hi: real): (r: real)
    ensures r <= hi
    ensures lo <= hi ==> lo <= r
    ensures lo <= v <= hi ==> r == v
    ensures v < lo && lo <= hi ==> r == lo
    ensures hi < v || hi < lo ==> r == hi
  {
    var m := if v < lo then lo else v;
    if m > hi then hi else m
  }

  /** `Clip` over integers, for the clipped cell indices; the contract is
      `Clip`'s. */
  function ClipInt(v: int, lo: int, hi: int): (r: int)
    ensures r <= hi
    ensures lo <= hi ==> lo <= r
    ensures lo <= v <= hi ==> r == v
    ensures v < lo && lo <= hi ==> r == lo
    ensures hi < v || hi < lo ==> r == hi
  {
    var m := if v < lo then lo else v;
    if m > hi then hi else m
  }

  /** `np.clip` on each coordinate, keeping a position `pad` inside the
      extent. The upper bound always holds; the lower one needs an extent of
      at least twice the padding. */
  function ClampInto(p: Vec, extent: Vec, pad: real): (q: Vec)
    ensures q.x <= extent.x - pad && q.y <= extent.y - pad
    ensures extent.x >= 2.0 * pad ==> pad <= q.x
    ensures extent.y >= 2.0 * pad ==> pad <= q.y
    ensures pad <= p.x <= extent.x - pad ==> q.x == p.x
    ensures pad <= p.y <= extent.y - pad ==> q.y == p.y
  {
    Vec(Clip(p.x, pad, extent.x - pad), Clip(p.y, pad, extent.y - pad))
  }

  /** Python's `int(v)` on a float: truncation toward zero. */
  function Trunc(v: real): (r: int)
    ensures 0.0 <= v ==> 0 <= r && r as real <= v < r as real + 1.0
    ensures v < 0.0 ==> r <= 0 && r as real - 1.0 < v <= r as real
  {
    if v >= 0.0 then v.Floor else -((-v).Floor)
  }

  /** Squared Euclidean distance; comparing squares replaces `math.dist`. */
  function DistSq(a: Vec, b: Vec): real
  {
    (a.x - b.x) * (a.x - b.x) + (a.y - b.y) * (a.y - b.y)
  }

  /** Squared length of a velocity. */
  function NormSq(v: Vec): real
  {
    v.x * v.x + v.y * v.y
  }
}

=== FILE: fish.dfy ===
/** Fish genetics and per-tick bookkeeping (FishBoid.py): the six-gene
    genotype with its inheritance, mutation-and-clip and social-learning
    rules, the reproduction timer, reproduction itself, and the hunger, age,
    position-clamp and grid-relocation parts of a fish's update. The float
    steering (separation, cohesion, alignment, edge field, food pull, speed
    limit) is summarised by the velocity it produces, which is an input. */
module FishBoid {
  import opened Common
  import opened BoidGrid

  /** Hunger a freshly fed fish has; the counter counts down once per tick. */
  const MaxHunger: int := 1900
  /** Positions are clipped this far inside the window. */
  const Padding: real := 20.0
  /** Fraction of the gap to an elder closed by one `learn`. */
  const LearningRate: real := 0.0003

  /** Gene order: separation, alignment, cohesion, food pull, predator push,
      hunger-threshold fraction. `GeneLo`/`GeneHi` are the clip bounds applied
      after mutation; `DrawLo`/`GeneHi` the ranges a new fish is drawn from. */
  const GeneLo: seq<real> := [0.25, 0.0001, 0.0001, 0.0001, 0.0001, 0.0001]
  const GeneHi: seq<real> := [3.0, 3.0, 1.0, 5.0, 5.0, 0.95]
  const DrawLo: seq<real> := [0.25, 0.001, 0.001, 0.01, 0.01, 0.05]

  /** A genotype with every gene inside its clip range. */
  predicate InRange(genes: seq<real>)
  {
    |genes| == 6 && forall i :: 0 <= i < 6 ==> GeneLo[i] <= genes[i] <= GeneHi[i]
  }

  datatype Fish = Fish(
    pos: Vec,
    vel: Vec,
    genes: seq<real>,
    hunger: int,
    hungryLevel: int,
    age: nat,
    reproduceTime: int,
    reproduceTimer: int,
    isJuvenile: bool,
    isElder: bool,
    evoAndLearn: bool,
    stochastic: bool,
    window: Window)

  /** The fish's own bounds: the source swaps the window tuple, so `x` runs up
      to `window[1]` and `y` up to `window[0]`. */
  function Extent(f: Fish): Vec
  {
    Vec(f.window.w1 as real, f.window.w0 as real)
  }

  /** Every fish in the arena carries a six-gene genotype. */
  predicate SixGenes(arena: seq<Fish>)
  {
    forall k :: 0 <= k < |arena| ==> |arena[k].genes| == 6
  }

  /** Every fish in the arena has its genes inside the clip ranges. */
  predicate GenesInRange(arena: seq<Fish>)
  {
    forall k :: 0 <= k < |arena| ==> InRange(arena[k].genes)
  }

  /** The random draws the constructor makes, as explicit inputs: position
      fractions, velocity, genes, starting hunger and starting timer. */
  datatype Draws = Draws(ux: real, uy: real, vel: Vec, genes: seq<real>, hunger: int, timer: int)

  /** The ranges numpy draws from in `FishBoid.__init__`. */
  predicate ValidDraws(d: Draws)
  {
    && 0.1 <= d.ux <= 0.9 && 0.0 <= d.uy <= 0.9
    && -3.0 <= d.vel.x <= 3.0 && -3.0 <= d.vel.y <= 3.0
    && |d.genes| == 6 && (forall i :: 0 <= i < 6 ==> DrawLo[i] <= d.genes[i] <= GeneHi[i])
    && 1500 <= d.hunger < 1900
    && 0 <= d.timer < 300
  }

  /** `np.round`: nearest integer, ties to the even one. */
  function RoundHalfEven(x: real): (r: int)
    ensures x - 0.5 <= r as real <= x + 0.5
    ensures (r as real == x + 0.5 || r as real == x - 0.5) ==> r % 2 == 0
  {
    var f := x.Floor;
    var d := x - f as real;
    if d < 0.5 then f
    else if d > 0.5 then f + 1
    else if f % 2 == 0 then f else f + 1
  }

  /** `Hungry_Level = np.round(maxHunger * Hungry_co)`, fixed at construction. */
  function HungerThreshold(co: real): int
  {
    RoundHalfEven(MaxHunger as real * co)
  }

  /** `FishBoid.__init__` with its draws supplied. The threshold comes out
      strictly below the maximum hunger, so a freshly fed fish is never hungry. */
  function NewFish(window: Window, evoAndLearn: bool, stochastic: bool, reproduceTime: int, d: Draws): (f: Fish)
    requires ValidDraws(d)
    ensures InRange(f.genes)
    ensures 95 <= f.hungryLevel <= 1805 < MaxHunger
    ensures 1500 <= f.hunger < MaxHunger
    ensures 0 <= f.reproduceTimer < 300
    ensures f.age == 0 && !f.isJuvenile && !f.isElder
    ensures Extent(f) == Vec(window.w1 as real, window.w0 as real)
    ensures 0.1 * Extent(f).x <= f.pos.x <= 0.9 * Extent(f).x
    ensures 0.0 <= f.pos.y <= 0.9 * Extent(f).y
    ensures f.hungryLevel == HungerThreshold(f.genes[5])
    ensures f.genes == d.genes && f.vel == d.vel && f.hunger == d.hunger && f.reproduceTimer == d.timer
    ensures f.evoAndLearn == evoAndLearn && f.stochastic == stochastic
    ensures f.reproduceTime == reproduceTime && f.window == window
  {
    var level := HungerThreshold(d.genes[5]);
    assert 95.0 <= MaxHunger as real * d.genes[5] <= 1805.0;
    Fish(StartPos(window.w1 as real, window.w0 as real, d.ux, d.uy), d.vel, d.genes,
         d.hunger, level, 0, reproduceTime, d.timer, false, false, evoAndLearn, stochastic, window)
  }

  /** The start position: the drawn fractions of the (swapped) window. */
  function StartPos(width: real, height: real, ux: real, uy: real): (p: Vec)
    requires 0.1 <= ux <= 0.9 && 0.0 <= uy <= 0.9 && 0.0 <= width && 0.0 <= height
    ensures 0.1 * width <= p.x <= 0.9 * width
    ensures 0.0 <= p.y <= 0.9 * height
  {
    ScaleInner(ux, width);
    ScaleUpper(uy, height);
    Vec(ux * width, uy * height)
  }

  /** A fraction in `[0.1, 0.9]` of a non-negative length lies between
      those fractions of it. */
  lemma ScaleInner(u: real, w: real)
    requires 0.1 <= u <= 0.9 && 0.0 <= w
    ensures 0.1 * w <= u * w <= 0.9 * w
  {
    assert u * w - 0.1 * w == (u - 0.1) * w;
    assert 0.9 * w - u * w == (0.9 - u) * w;
  }

  /** A fraction in `[0, 0.9]` of a non-negative length lies between zero and
      nine tenths of it. */
  lemma ScaleUpper(u: real, w: real)
    requires 0.0 <= u <= 0.9 && 0.0 <= w
    ensures 0.0 <= u * w <= 0.9 * w
  {
    assert 0.9 * w - u * w == (0.9 - u) * w;
  }

  // ---------------------------------------------------------------------
  // Genetics
  // ---------------------------------------------------------------------

  /** `inherit`: the source compares the gene INDEX with 0.25 (the random
      `chance` it draws is never read), so the split is fixed: gene 0 comes
      from the younger-or-equal parent and genes 1..5 from the other one. When
      self is strictly older, genes 1..5 are self's; otherwise (equal ages
      included) they are the partner's. */
  function Inherit(selfAge: int, partnerAge: int, mine: seq<real>, theirs: seq<real>): (r: seq<real>)
    requires |mine| <= |theirs|
    ensures |r| == |mine|
    ensures |mine| > 0 ==> r[0] == (if selfAge > partnerAge then theirs[0] else mine[0])
    ensures forall i :: 1 <= i < |mine| ==> r[i] == (if selfAge > partnerAge then mine[i] else theirs[i])
  {
    seq(|mine|, i requires 0 <= i < |mine| =>
      if selfAge > partnerAge then (if i as real > 0.25 then mine[i] else theirs[i])
      else (if i as real > 0.25 then theirs[i] else mine[i]))
  }

  /** A child of two in-range parents is in range before any mutation. */
  lemma InheritKeepsRange(selfAge: int, partnerAge: int, mine: seq<real>, theirs: seq<real>)
    requires InRange(mine) && InRange(theirs)
    ensures InRange(Inherit(selfAge, partnerAge, mine, theirs))
  {
    var r := Inherit(selfAge, partnerAge, mine, theirs);
    forall i | 0 <= i < 6
      ensures GeneLo[i] <= r[i] <= GeneHi[i]
    {
      if i == 0 {
        assert r[0] == mine[0] || r[0] == theirs[0];
      } else {
        assert r[i] == mine[i] || r[i] == theirs[i];
      }
    }
  }

  /** Whichever parent asks, the child takes gene 0 from the younger parent
      and genes 1..5 from the older one; for example, a 100-tick parent and a
      50-tick partner give the 50-tick fish's gene 0 and the 100-tick fish's
      other five genes. */
  lemma OlderParentGivesFiveGenes(older: seq<real>, younger: seq<real>, oldAge: int, youngAge: int)
    requires |older| == 6 && |younger| == 6 && oldAge > youngAge
    ensures var a := Inherit(oldAge, youngAge, older, younger);
      a[0] == younger[0] && a[1..] == older[1..]
    ensures var b := Inherit(youngAge, oldAge, younger, older);
      b[0] == younger[0] && b[1..] == older[1..]
  {
  }

  /** `TournamentGA`: inherit, add the mutation noise, clip every gene to its
      range. Whatever the noise, the result is an in-range genotype; a gene
      whose mutated value is in range is kept exactly, one that overshoots
      lands on the nearer bound. */
  function TournamentGA(selfAge: int, partnerAge: int, mine: seq<real>, theirs: seq<real>, noise: seq<real>): (r: seq<real>)
    requires |mine| == 6 && |theirs| == 6 && |noise| == 6
    ensures InRange(r)
    ensures forall i :: 0 <= i < 6 ==>
      var v := Inherit(selfAge, partnerAge, mine, theirs)[i] + noise[i];
      && (GeneLo[i] <= v <= GeneHi[i] ==> r[i] == v)
      && (v < GeneLo[i] ==> r[i] == GeneLo[i])
      && (GeneHi[i] < v ==> r[i] == GeneHi[i])
  {
    var baby := Inherit(selfAge, partnerAge, mine, theirs);
    seq(6, i requires 0 <= i < 6 => Clip(baby[i] + noise[i], GeneLo[i], GeneHi[i]))
  }

  /** With zero noise and in-range parents the clip does nothing, so
      reproduction is plain inheritance. */
  lemma TournamentWithoutNoise(selfAge: int, partnerAge: int, mine: seq<real>, theirs: seq<real>)
    requires InRange(mine) && InRange(theirs)
    ensures TournamentGA(selfAge, partnerAge, mine, theirs, [0.0, 0.0, 0.0, 0.0, 0.0, 0.0])
      == Inherit(selfAge, partnerAge, mine, theirs)
  {
    InheritKeepsRange(selfAge, partnerAge, mine, theirs);
  }

  /** `learn`: every gene closes 0.03% of its gap to the elder's, so the gap
      shrinks by the factor 0.9997 and the new value lies between the old one
      and the elder's. */
  function Learn(mine: seq<real>, elder: seq<real>): (r: seq<real>)
    requires |mine| == 6 && |elder| == 6
    ensures |r| == 6
    ensures forall i :: 0 <= i < 6 ==> r[i] - elder[i] == (1.0 - LearningRate) * (mine[i] - elder[i])
    ensures forall i :: 0 <= i < 6 ==>
      (mine[i] <= elder[i] ==> mine[i] <= r[i] <= elder[i]) && (elder[i] <= mine[i] ==> elder[i] <= r[i] <= mine[i])
  {
    seq(6, i requires 0 <= i < 6 => mine[i] + LearningRate * (elder[i] - mine[i]))
  }

  /** Learning between in-range genotypes stays in range, and learning from
      an identical genotype changes nothing. */
  lemma LearnKeepsRange(mine: seq<real>, elder: seq<real>)
    requires InRange(mine) && InRange(elder)
    ensures InRange(Learn(mine, elder))
    ensures mine == elder ==> Learn(mine, elder) == mine
  {
    var r := Learn(mine, elder);
    forall i | 0 <= i < 6
      ensures GeneLo[i] <= r[i] <= GeneHi[i]
    {
    }
  }

  /** The learning loop of `update`: learn, in neighbour order, from every
      neighbour flagged elder. The predator is never an elder. When self is
      among its own elders it learns from its current genes, a no-op. */
  function LearnFrom(genes: seq<real>, nbs: seq<Entity>, arena: seq<Fish>, selfId: nat): (r: seq<real>)
    requires |genes| == 6 && SixGenes(arena)
    requires forall e :: e in nbs && e.FishRef? ==> e.id < |arena|
    ensures |r| == 6
    ensures InRange(genes) && GenesInRange(arena) ==> InRange(r)
    decreases |nbs|
  {
    if |nbs| == 0 then genes
    else
      var e := nbs[0];
      var learned :=
        if e.FishRef? && arena[e.id].isElder then
          var model := if e.id == selfId then genes else arena[e.id].genes;
          (if InRange(genes) && InRange(model) then LearnKeepsRange(genes, model); Learn(genes, model)
           else Learn(genes, model))
        else genes;
      assert forall x :: x in nbs[1..] ==> x in nbs;
      LearnFrom(learned, nbs[1..], arena, selfId)
  }

  // ---------------------------------------------------------------------
  // Reproduction timer and reproduction
  // ---------------------------------------------------------------------

  /** The timer step of `update`: fire (and restart from 0) once the timer has
      reached the threshold, else count up. A timer in `[0, T]` stays there. */
  function TimerStep(timer: int, reproduceTime: int): (r: (int, bool))
    ensures r.1 <==> timer >= reproduceTime
    ensures 0 <= timer <= reproduceTime ==> 0 <= r.0 <= reproduceTime
    ensures r.1 ==> r.0 == 0
    ensures !r.1 ==> r.0 == timer + 1
  {
    if timer >= reproduceTime then (0, true) else (timer + 1, false)
  }

  /** The timer after `n` ticks, with how many of them fired. */
  function RunTimer(timer: int, reproduceTime: int, n: nat): (int, nat)
    decreases n
  {
    if n == 0 then (timer, 0)
    else
      var s := TimerStep(timer, reproduceTime);
      var rest := RunTimer(s.0, reproduceTime, n - 1);
      (rest.0, rest.1 + if s.1 then 1 else 0)
  }

  lemma {:induction false} RunTimerSplit(timer: int, reproduceTime: int, a: nat, b: nat)
    ensures var first := RunTimer(timer, reproduceTime, a);
      var second := RunTimer(first.0, reproduceTime, b);
      RunTimer(timer, reproduceTime, a + b) == (second.0, first.1 + second.1)
    decreases a
  {
    if a > 0 {
      var s := TimerStep(timer, reproduceTime);
      RunTimerSplit(s.0, reproduceTime, a - 1, b);
      assert a + b - 1 == (a - 1) + b;
    }
  }

  lemma {:induction false} RunTimerCountsUp(timer: int, reproduceTime: int, n: nat)
    requires 0 <= timer && timer + n <= reproduceTime
    ensures RunTimer(timer, reproduceTime, n) == (timer + n, 0)
    decreases n
  {
    if n > 0 {
      RunTimerCountsUp(timer + 1, reproduceTime, n - 1);
    }
  }

  /** Starting from 0 the timer fires once every `T + 1` ticks: after `n`
      whole periods it has fired exactly `n` times and is back at 0. */
  lemma {:induction false} TimerPeriod(reproduceTime: nat, n: nat)
    ensures RunTimer(0, reproduceTime, n * (reproduceTime + 1)) == (0, n)
    decreases n
  {
    if n > 0 {
      var p := reproduceTime + 1;
      assert n * p == reproduceTime + (1 + (n - 1) * p);
      RunTimerSplit(0, reproduceTime, reproduceTime, 1 + (n - 1) * p);
      RunTimerCountsUp(0, reproduceTime, reproduceTime);
      RunTimerSplit(reproduceTime, reproduceTime, 1, (n - 1) * p);
      TimerPeriod(reproduceTime, n - 1);
    }
  }

  function Midpoint(a: Vec, b: Vec): Vec
  {
    Vec((a.x + b.x) / 2.0, (a.y + b.y) / 2.0)
  }

  /** `reproduce`: the partner is `getPartner`'s answer; only a fish other
      than self yields a child. The child stands at the parents' midpoint,
      takes the tournament genotype when evolution is on (its own drawn genes
      otherwise) and keeps the hunger threshold its constructor computed
      from its own drawn gene. It is handed back to be appended to the
      population; it is not filed in the grid. */
  function Reproduce(me: Fish, selfId: nat, arena: seq<Fish>, g: Grid, d: Draws, noise: seq<real>): (baby: Option<Fish>)
    requires g.Usable() && RefsBelow(g, |arena|) && SixGenes(arena)
    requires |me.genes| == 6 && ValidDraws(d) && |noise| == 6
    ensures var p := Partner(g, me.pos);
      baby.Some? <==> p.Some? && p.value.FishRef? && p.value.id != selfId
    ensures baby.Some? ==> Partner(g, me.pos).value.id < |arena|
    ensures baby.Some? ==>
      var mate := arena[Partner(g, me.pos).value.id];
      && baby.value.pos == Midpoint(me.pos, mate.pos)
      && InRange(baby.value.genes)
      && (me.evoAndLearn ==> baby.value.genes == TournamentGA(me.age, mate.age, me.genes, mate.genes, noise))
      && (!me.evoAndLearn ==> baby.value.genes == d.genes)
      && baby.value.hungryLevel == HungerThreshold(d.genes[5])
      && baby.value.age == 0 && !baby.value.isElder && !baby.value.isJuvenile
      && baby.value.window == me.window && baby.value.reproduceTime == me.reproduceTime
  {
    NeighboursBelow(g, me.pos, 3, |arena|);
    var p := Partner(g, me.pos);
    if p.Some? && p.value.FishRef? && p.value.id != selfId then
      var mate := arena[p.value.id];
      var child := NewFish(me.window, me.evoAndLearn, me.stochastic, me.reproduceTime, d);
      var genes := if me.evoAndLearn then TournamentGA(me.age, mate.age, me.genes, mate.genes, noise) else child.genes;
      Some(child.(pos := Midpoint(me.pos, mate.pos), genes := genes))
    else None
  }

  // ---------------------------------------------------------------------
  // The bookkeeping of `update`
  // ---------------------------------------------------------------------

  /** What one fish's update needs from outside: the velocity its steering
      and speed limit produce, the draws of a child's constructor and the
      mutation noise. */
  datatype Inputs = Inputs(vel: Vec, baby: Draws, noise: seq<real>)

  predicate ValidInputs(inp: Inputs)
  {
    ValidDraws(inp.baby) && |inp.noise| == 6
  }

  /** The result of one fish's update: its new state, the grid after it
      relocated itself, and the child it may have had. */
  datatype Step = Step(fish: Fish, grid: Grid, baby: Option<Fish>)

  /** The learning phase of `update`: a juvenile with evolution switched on
      learns from the elders among its radius-2 neighbours; any other fish
      keeps its genes. */
  function LearnPhase(selfId: nat, arena: seq<Fish>, g: Grid): (genes: seq<real>)
    requires selfId < |arena| && g.Usable() && RefsBelow(g, |arena|) && SixGenes(arena)
    ensures |genes| == 6
    ensures GenesInRange(arena) ==> InRange(genes)
    ensures !(arena[selfId].isJuvenile && arena[selfId].evoAndLearn) ==> genes == arena[selfId].genes
  {
    var me := arena[selfId];
    NeighboursBelow(g, me.pos, 2, |arena|);
    if me.isJuvenile && me.evoAndLearn then LearnFrom(me.genes, Neighbours(g, me.pos, 2), arena, selfId)
    else me.genes
  }

  /** The timer phase of `update`: the new timer value and the child, if the
      timer fired and a partner was found. A child only comes from a firing
      timer, and after a firing the timer is 0 whether or not a child came. */
  function BreedPhase(me: Fish, selfId: nat, arena: seq<Fish>, g: Grid, inp: Inputs): (r: (int, Option<Fish>))
    requires g.Usable() && RefsBelow(g, |arena|) && SixGenes(arena)
    requires |me.genes| == 6 && ValidInputs(inp)
    ensures r.0 == TimerStep(me.reproduceTimer, me.reproduceTime).0
    ensures r.1.Some? ==> TimerStep(me.reproduceTimer, me.reproduceTime).1 && r.0 == 0
    ensures r.1.Some? ==>
      InRange(r.1.value.genes) && r.1.value.age == 0 && !r.1.value.isElder && !r.1.value.isJuvenile
    ensures TimerStep(me.reproduceTimer, me.reproduceTime).1 ==> r.1 == Reproduce(me, selfId, arena, g, inp.baby, inp.noise)
  {
    var timer := TimerStep(me.reproduceTimer, me.reproduceTime);
    (timer.0, if timer.1 then Reproduce(me, selfId, arena, g, inp.baby, inp.noise) else None)
  }

  /** `update` of fish `selfId`, without the float steering: hunger down by
      one, learning from elders among the radius-2 neighbours when juvenile
      and evolving, the reproduction timer (with reproduction when it fires,
      still at the old position), the move and clamp, relocation in the grid
      keyed on the position from before the update, and age up by one. */
  function Update(selfId: nat, arena: seq<Fish>, g: Grid, inp: Inputs): (s: Step)
    requires selfId < |arena| && g.Usable() && RefsBelow(g, |arena|) && SixGenes(arena)
    requires ValidInputs(inp)
    ensures var me := arena[selfId];
      && s.fish.hunger == me.hunger - 1
      && s.fish.age == me.age + 1
      && s.fish.vel == inp.vel
      && s.fish.hungryLevel == me.hungryLevel
      && s.fish.isElder == me.isElder && s.fish.isJuvenile == me.isJuvenile
      && s.fish.window == me.window && s.fish.reproduceTime == me.reproduceTime
      && s.fish.evoAndLearn == me.evoAndLearn && s.fish.stochastic == me.stochastic
    ensures |s.fish.genes| == 6
    ensures GenesInRange(arena) ==> InRange(s.fish.genes)
    ensures s.fish.pos == ClampInto(Vec(arena[selfId].pos.x + inp.vel.x, arena[selfId].pos.y + inp.vel.y), Extent(arena[selfId]), Padding)
    ensures s.grid == UpdateFish(g, FishRef(selfId), s.fish.pos, arena[selfId].pos)
    ensures 0 <= arena[selfId].reproduceTimer <= arena[selfId].reproduceTime ==>
      0 <= s.fish.reproduceTimer <= s.fish.reproduceTime
    ensures s.baby.Some? ==>
      TimerStep(arena[selfId].reproduceTimer, arena[selfId].reproduceTime).1
      && s.fish.reproduceTimer == 0 && InRange(s.baby.value.genes)
      && s.baby.value.age == 0 && !s.baby.value.isElder && !s.baby.value.isJuvenile
    ensures s.fish.genes == LearnPhase(selfId, arena, g)
    ensures s.fish.reproduceTimer == TimerStep(arena[selfId].reproduceTimer, arena[selfId].reproduceTime).0
    ensures TimerStep(arena[selfId].reproduceTimer, arena[selfId].reproduceTime).1 ==>
      s.baby == Reproduce(arena[selfId].(hunger := arena[selfId].hunger - 1, genes := s.fish.genes),
                          selfId, arena, g, inp.baby, inp.noise)
  {
    var me := arena[selfId];
    var me1 := me.(hunger := me.hunger - 1, genes := LearnPhase(selfId, arena, g));
    var bred := BreedPhase(me1, selfId, arena, g, inp);
    var pos := ClampInto(Vec(me.pos.x + inp.vel.x, me.pos.y + inp.vel.y), Extent(me), Padding);
    var me2 := me1.(reproduceTimer := bred.0, vel := inp.vel, pos := pos, age := me.age + 1);
    Step(me2, UpdateFish(g, FishRef(selfId), pos, me.pos), bred.1)
  }

  /** The grid an update hands back still names only fish of the arena. */
  lemma UpdateKeepsArenaRefs(selfId: nat, arena: seq<Fish>, g: Grid, inp: Inputs)
    requires selfId < |arena| && g.Usable() && RefsBelow(g, |arena|) && SixGenes(arena)
    requires ValidInputs(inp)
    ensures RefsBelow(Update(selfId, arena, g, inp).grid, |arena|)
  {
    var s := Update(selfId, arena, g, inp);
    UpdateKeepsRefs(g, FishRef(selfId), s.fish.pos, arena[selfId].pos, |arena|);
  }

  /** A fish filed exactly once, under its position, is filed exactly once
      under its new position after its update, and nobody else moves. */
  lemma UpdateRelocates(selfId: nat, arena: seq<Fish>, g: Grid, inp: Inputs)
    requires selfId < |arena| && g.Usable() && RefsBelow(g, |arena|) && SixGenes(arena)
    requires ValidInputs(inp)
    requires FiledOnceAt(g, FishRef(selfId), arena[selfId].pos)
    ensures var s := Update(selfId, arena, g, inp);
      && FiledOnceAt(s.grid, FishRef(selfId), s.fish.pos)
      && (forall x, r, c :: x != FishRef(selfId) && g.InBounds(r, c) ==> Occurs(s.grid, x, r, c) == Occurs(g, x, r, c))
  {
    var s := Update(selfId, arena, g, inp);
    assert s.grid == UpdateFish(g, FishRef(selfId), s.fish.pos, arena[selfId].pos);
  }

  /** For any velocity the fish ends inside the padded window, provided the
      window is at least twice the padding wide and high. */
  lemma UpdateStaysInside(selfId: nat, arena: seq<Fish>, g: Grid, inp: Inputs)
    requires selfId < |arena| && g.Usable() && RefsBelow(g, |arena|) && SixGenes(arena)
    requires ValidInputs(inp)
    requires Extent(arena[selfId]).x >= 2.0 * Padding && Extent(arena[selfId]).y >= 2.0 * Padding
    ensures var p := Update(selfId, arena, g, inp).fish.pos;
      && Padding <= p.x <= Extent(arena[selfId]).x - Padding
      && Padding <= p.y <= Extent(arena[selfId]).y - Padding
  {
  }
}

=== FILE: food.dfy ===
/** Food points (FoodPoint.py): a point feeds hungry fish within a box of
    cells around it until its capacity runs out, then stays switched off for
    a fixed number of ticks and comes back full. */
module Food {
  import opened Common
  import opened BoidGrid
  import opened FishBoid

  /** Ticks a depleted point stays off. */
  const TimeOut: int := 2800

  datatype FoodPoint = FoodPoint(
    pos: Vec,
    maxCapacity: int,
    capacity: int,
    active: bool,
    internalTime: int,
    size: nat)

  /** The state the constructor builds: switched on, full, clock at zero. */
  function NewFood(pos: Vec, maxCapacity: int, size: nat): (f: FoodPoint)
    ensures Sound(f) && f.active && f.capacity == f.maxCapacity
    ensures f.pos == pos && f.maxCapacity == maxCapacity && f.internalTime == 0 && f.size == size
  {
    FoodPoint(pos, maxCapacity, maxCapacity, true, 0, size)
  }

  /** What holds of a food point between ticks: it never holds more than its
      maximum, a switched-off point's clock has not yet run out, and, when
      the maximum is positive, the capacity is never negative and a
      switched-on point has food left. */
  predicate Sound(f: FoodPoint)
  {
    && f.capacity <= f.maxCapacity && 0 <= f.internalTime && (!f.active ==> f.internalTime < TimeOut)
    && (f.maxCapacity > 0 ==> 0 <= f.capacity && (f.active ==> f.capacity > 0))
  }

  /** `checkActive`: an empty active point switches off and restarts its
      clock; an inactive one ticks its clock and, once the clock reaches the
      time-out, switches on again refilled. An active point with food left
      is untouched. */
  function CheckActive(f: FoodPoint): (r: FoodPoint)
    ensures r.pos == f.pos && r.maxCapacity == f.maxCapacity && r.size == f.size
    ensures f.active && f.capacity > 0 ==> r == f
    ensures f.active && f.capacity <= 0 ==> !r.active && r.internalTime == 0 && r.capacity == f.capacity
    ensures !f.active ==> r.internalTime == f.internalTime + 1
    ensures !f.active ==> (r.active <==> f.internalTime + 1 >= TimeOut)
    ensures !f.active && r.active ==> r.capacity == f.maxCapacity
    ensures !f.active && !r.active ==> r.capacity == f.capacity
  {
    if f.active && f.capacity <= 0 then f.(internalTime := 0, active := false)
    else if !f.active then
      var t := f.internalTime + 1;
      if t >= TimeOut then f.(internalTime := t, active := true, capacity := f.maxCapacity)
      else f.(internalTime := t)
    else f
  }

  /** `checkActive` keeps a point sound. */
  lemma CheckActiveSound(f: FoodPoint)
    requires Sound(f)
    ensures Sound(CheckActive(f))
  {
  }

  /** The outcome of feeding: the point, the fish population and how many
      fish were fed. */
  datatype Feeding = Feeding(point: FoodPoint, arena: seq<Fish>, fed: nat)

  /** A fish the point may feed: below its own hunger threshold. */
  predicate Hungry(fish: Fish)
  {
    fish.hunger < fish.hungryLevel
  }

  /** The loop of `detectFish` over the neighbour list: while the point is
      active, every hungry fish met takes one unit, is reset to maximum
      hunger, and the point re-checks itself. The predator is skipped. A
      fish met twice is fed at most once when its threshold does not exceed
      the maximum hunger (see `FeedOncePerFish`). */
  function Feed(f: FoodPoint, nbs: seq<Entity>, arena: seq<Fish>): (r: Feeding)
    requires forall e :: e in nbs && e.FishRef? ==> e.id < |arena|
    ensures |r.arena| == |arena|
    ensures r.point.pos == f.pos && r.point.maxCapacity == f.maxCapacity && r.point.size == f.size
    ensures !f.active ==> r == Feeding(f, arena, 0)
    ensures r.point.capacity == f.capacity - r.fed
    ensures r.fed == 0 ==> r.point == f
    ensures r.fed > 0 && r.point.active ==> r.point.capacity > 0 && r.point.internalTime == f.internalTime
    ensures r.fed > 0 && !r.point.active ==> r.point.internalTime == 0
    ensures f.active && f.capacity > 0 ==> r.fed <= f.capacity
    ensures f.active && f.capacity <= 0 ==> r.fed <= 1
    ensures forall k :: 0 <= k < |arena| ==>
      r.arena[k] == arena[k]
      || (FishRef(k) in nbs && Hungry(arena[k]) && r.arena[k] == arena[k].(hunger := MaxHunger))
    decreases |nbs|
  {
    if |nbs| == 0 then Feeding(f, arena, 0)
    else
      var e := nbs[0];
      assert forall x :: x in nbs[1..] ==> x in nbs;
      if f.active && e.FishRef? && Hungry(arena[e.id]) then
        var f1 := CheckActive(f.(capacity := f.capacity - 1));
        var arena1 := arena[e.id := arena[e.id].(hunger := MaxHunger)];
        var rest := Feed(f1, nbs[1..], arena1);
        Feeding(rest.point, rest.arena, rest.fed + 1)
      else Feed(f, nbs[1..], arena)
  }

  /** The other direction of `Feed`: a point still on at the end of the pass
      was on throughout (an emptied point stays off for the rest of the
      list), so every listed fish that was hungry has been fed. */
  lemma {:induction false} FeedFeedsAllHungry(f: FoodPoint, nbs: seq<Entity>, arena: seq<Fish>)
    requires forall e :: e in nbs && e.FishRef? ==> e.id < |arena|
    ensures var r := Feed(f, nbs, arena);
      r.point.active ==>
        forall k :: 0 <= k < |arena| && FishRef(k) in nbs && Hungry(arena[k]) ==> r.arena[k].hunger == MaxHunger
    decreases |nbs|
  {
    if |nbs| > 0 {
      var e := nbs[0];
      assert forall x :: x in nbs[1..] ==> x in nbs;
      if f.active && e.FishRef? && Hungry(arena[e.id]) {
        var f1 := CheckActive(f.(capacity := f.capacity - 1));
        var arena1 := arena[e.id := arena[e.id].(hunger := MaxHunger)];
        var rest := Feed(f1, nbs[1..], arena1);
        FeedFeedsAllHungry(f1, nbs[1..], arena1);
        assert Feed(f, nbs, arena) == Feeding(rest.point, rest.arena, rest.fed + 1);
        FedHeadComplete(nbs, arena, arena1, rest.arena, rest.point.active);
      } else {
        var rest := Feed(f, nbs[1..], arena);
        FeedFeedsAllHungry(f, nbs[1..], arena);
        assert Feed(f, nbs, arena) == rest;
        SkippedHeadComplete(f.active, nbs, arena, rest.arena, rest.point.active);
      }
    }
  }

  /** A fed head is full and stays full, so if the rest of the pass feeds
      every hungry fish it lists, the whole pass feeds every hungry fish. */
  lemma FedHeadComplete(nbs: seq<Entity>, arena: seq<Fish>, arena1: seq<Fish>, out: seq<Fish>, on: bool)
    requires |nbs| > 0 && nbs[0].FishRef? && nbs[0].id < |arena| && |out| == |arena|
    requires arena1 == arena[nbs[0].id := arena[nbs[0].id].(hunger := MaxHunger)]
    requires forall k :: 0 <= k < |arena1| ==>
      out[k] == arena1[k] || (FishRef(k) in nbs[1..] && Hungry(arena1[k]) && out[k] == arena1[k].(hunger := MaxHunger))
    requires on ==>
      forall k :: 0 <= k < |arena1| && FishRef(k) in nbs[1..] && Hungry(arena1[k]) ==> out[k].hunger == MaxHunger
    ensures on ==>
      forall k :: 0 <= k < |arena| && FishRef(k) in nbs && Hungry(arena[k]) ==> out[k].hunger == MaxHunger
  {
    if on {
      forall k | 0 <= k < |arena| && FishRef(k) in nbs && Hungry(arena[k])
        ensures out[k].hunger == MaxHunger
      {
        if k != nbs[0].id {
          assert FishRef(k) in nbs[1..] by { assert nbs == [nbs[0]] + nbs[1..]; }
        }
      }
    }
  }

  /** A head the pass skips while on is no hungry fish, so feeding every
      hungry fish of the tail feeds every hungry fish of the list. */
  lemma SkippedHeadComplete(active: bool, nbs: seq<Entity>, arena: seq<Fish>, out: seq<Fish>, on: bool)
    requires |nbs| > 0 && |out| == |arena|
    requires active && nbs[0].FishRef? && nbs[0].id < |arena| ==> !Hungry(arena[nbs[0].id])
    requires !active ==> !on
    requires on ==>
      forall k :: 0 <= k < |arena| && FishRef(k) in nbs[1..] && Hungry(arena[k]) ==> out[k].hunger == MaxHunger
    ensures on ==>
      forall k :: 0 <= k < |arena| && FishRef(k) in nbs && Hungry(arena[k]) ==> out[k].hunger == MaxHunger
  {
    if on {
      forall k | 0 <= k < |arena| && FishRef(k) in nbs && Hungry(arena[k])
        ensures out[k].hunger == MaxHunger
      {
        assert FishRef(k) in nbs[1..] by { assert nbs == [nbs[0]] + nbs[1..]; }
      }
    }
  }

  /** The fish ids in `nbs` that are currently hungry. */
  function HungryIds(nbs: seq<Entity>, arena: seq<Fish>): set<nat>
  {
    set k | 0 <= k < |arena| && FishRef(k) in nbs && Hungry(arena[k])
  }

  /** The arena indices whose fish differ between `a` and `b`. */
  function ChangedIds(a: seq<Fish>, b: seq<Fish>): set<nat>
    requires |a| == |b|
  {
    set k | 0 <= k < |a| && b[k] != a[k]
  }

  /** When no threshold exceeds the maximum hunger, a fed fish is no longer
      hungry, so one pass feeds each listed fish at most once, however often
      the grid lists it: every meal changes a different fish, so the number
      fed is the number of fish whose record changed, and at most the number
      of distinct hungry fish in the list. */
  lemma {:induction false} FeedOncePerFish(f: FoodPoint, nbs: seq<Entity>, arena: seq<Fish>)
    requires forall e :: e in nbs && e.FishRef? ==> e.id < |arena|
    requires forall k :: 0 <= k < |arena| ==> arena[k].hungryLevel <= MaxHunger
    ensures var r := Feed(f, nbs, arena); r.fed == |ChangedIds(arena, r.arena)|
    ensures Feed(f, nbs, arena).fed <= |HungryIds(nbs, arena)|
    decreases |nbs|
  {
    if |nbs| > 0 {
      var e := nbs[0];
      assert forall x :: x in nbs[1..] ==> x in nbs;
      if f.active && e.FishRef? && Hungry(arena[e.id]) {
        var f1 := CheckActive(f.(capacity := f.capacity - 1));
        var arena1 := arena[e.id := arena[e.id].(hunger := MaxHunger)];
        FeedHead(f, nbs, arena);
        FeedOncePerFish(f1, nbs[1..], arena1);
        FedShrinks(nbs, arena);
        var rest := Feed(f1, nbs[1..], arena1);
        assert Feed(f, nbs, arena) == Feeding(rest.point, rest.arena, rest.fed + 1);
        FedHeadChanged(arena, arena1, rest.arena, e.id);
      } else {
        FeedHead(f, nbs, arena);
        FeedOncePerFish(f, nbs[1..], arena);
        TailShrinks(nbs, arena);
        assert Feed(f, nbs, arena) == Feed(f, nbs[1..], arena);
      }
    }
  }

  /** The fish fed at the head is changed and stays so; the rest of the pass
      changes the others. */
  lemma FedHeadChanged(arena: seq<Fish>, arena1: seq<Fish>, out: seq<Fish>, id: nat)
    requires id < |arena| && |out| == |arena| && Hungry(arena[id]) && arena[id].hungryLevel <= MaxHunger
    requires arena1 == arena[id := arena[id].(hunger := MaxHunger)]
    requires out[id] == arena1[id] || Hungry(arena1[id])
    ensures |ChangedIds(arena, out)| == |ChangedIds(arena1, out)| + 1
  {
    assert !Hungry(arena1[id]);
    assert out[id] != arena[id] by { assert out[id].hunger == MaxHunger != arena[id].hunger; }
    assert ChangedIds(arena, out) == ChangedIds(arena1, out) + {id};
    assert id !in ChangedIds(arena1, out);
  }

  /** One step of the loop: the count of a list is that of its tail, plus one
      when the head is fed. */
  lemma FeedHead(f: FoodPoint, nbs: seq<Entity>, arena: seq<Fish>)
    requires forall e :: e in nbs && e.FishRef? ==> e.id < |arena|
    requires |nbs| > 0
    ensures forall x :: x in nbs[1..] ==> x in nbs
    ensures var e := nbs[0];
      if f.active && e.FishRef? && Hungry(arena[e.id]) then
        var arena1 := arena[e.id := arena[e.id].(hunger := MaxHunger)];
        Feed(f, nbs, arena).fed == Feed(CheckActive(f.(capacity := f.capacity - 1)), nbs[1..], arena1).fed + 1
      else Feed(f, nbs, arena).fed == Feed(f, nbs[1..], arena).fed
  {
    assert forall x :: x in nbs[1..] ==> x in nbs;
  }

  /** Dropping the head of the list loses no hungry fish it did not list. */
  lemma TailShrinks(nbs: seq<Entity>, arena: seq<Fish>)
    requires |nbs| > 0
    ensures |HungryIds(nbs[1..], arena)| <= |HungryIds(nbs, arena)|
  {
    assert forall x :: x in nbs[1..] ==> x in nbs;
    SubsetCard(HungryIds(nbs[1..], arena), HungryIds(nbs, arena));
  }

  /** Feeding the hungry fish at the head takes it out of the hungry set. */
  lemma FedShrinks(nbs: seq<Entity>, arena: seq<Fish>)
    requires |nbs| > 0 && nbs[0].FishRef? && nbs[0].id < |arena| && Hungry(arena[nbs[0].id])
    requires arena[nbs[0].id].hungryLevel <= MaxHunger
    ensures var id := nbs[0].id;
      |HungryIds(nbs[1..], arena[id := arena[id].(hunger := MaxHunger)])| < |HungryIds(nbs, arena)|
  {
    var id := nbs[0].id;
    var arena1 := arena[id := arena[id].(hunger := MaxHunger)];
    assert forall x :: x in nbs[1..] ==> x in nbs;
    assert HungryIds(nbs[1..], arena1) <= HungryIds(nbs, arena) - {id};
    assert id in HungryIds(nbs, arena);
    SubsetCard(HungryIds(nbs[1..], arena1), HungryIds(nbs, arena) - {id});
  }

  lemma SubsetCard<T>(a: set<T>, b: set<T>)
    requires a <= b
    ensures |a| <= |b|
  {
    assert b == a + (b - a);
  }

  /** `detectFish`: feed along the neighbour list of the point's own cell at
      the point's radius, then check the point once more. */
  function DetectFish(f: FoodPoint, g: Grid, arena: seq<Fish>): (r: Feeding)
    requires g.Usable() && RefsBelow(g, |arena|)
    ensures |r.arena| == |arena|
    ensures r.point.pos == f.pos && r.point.maxCapacity == f.maxCapacity && r.point.size == f.size
    ensures forall k :: 0 <= k < |arena| ==>
      r.arena[k] == arena[k]
      || (FishRef(k) in Neighbours(g, f.pos, f.size) && Hungry(arena[k]) && r.arena[k] == arena[k].(hunger := MaxHunger))
    ensures !f.active ==> r == Feeding(CheckActive(f), arena, 0)
    ensures f.active && r.point.active ==>
      forall k :: 0 <= k < |arena| && FishRef(k) in Neighbours(g, f.pos, f.size) && Hungry(arena[k]) ==>
        r.arena[k].hunger == MaxHunger
    ensures Sound(f) ==> Sound(r.point)
    ensures Sound(f) && f.maxCapacity > 0 ==> 0 <= r.point.capacity <= f.maxCapacity
    ensures f.active && f.capacity > 0 && !r.point.active ==> r.point.internalTime == 1
    ensures f.active && f.capacity <= 0 ==> !r.point.active
  {
    NeighboursBelow(g, f.pos, f.size, |arena|);
    FeedFeedsAllHungry(f, Neighbours(g, f.pos, f.size), arena);
    var fed := Feed(f, Neighbours(g, f.pos, f.size), arena);
    Feeding(CheckActive(fed.point), fed.arena, fed.fed)
  }

  /** `n` further ticks of a switched-off point: `detectFish` then amounts
      to `checkActive` alone. */
  function Idle(f: FoodPoint, n: nat): FoodPoint
    decreases n
  {
    if n == 0 then f else Idle(CheckActive(f), n - 1)
  }

  lemma {:induction false} IdleCountsUp(f: FoodPoint, n: nat)
    requires !f.active && f.internalTime + n < TimeOut
    ensures Idle(f, n) == f.(internalTime := f.internalTime + n)
    decreases n
  {
    if n > 0 {
      IdleCountsUp(CheckActive(f), n - 1);
    }
  }

  /** A point switched off by a tick restarts with its clock at 1; it then
      stays off for exactly 2798 more ticks and is back on, refilled, on the
      2799th. */
  lemma Cooldown(f: FoodPoint)
    requires !f.active && f.internalTime == 1
    ensures !Idle(f, TimeOut - 2).active
    ensures Idle(f, TimeOut - 1).active && Idle(f, TimeOut - 1).capacity == f.maxCapacity
  {
    IdleCountsUp(f, TimeOut - 2);
    assert Idle(f, TimeOut - 1) == Idle(Idle(f, TimeOut - 2), 1) by {
      IdleSplit(f, TimeOut - 2, 1);
    }
  }

  lemma {:induction false} IdleSplit(f: FoodPoint, a: nat, b: nat)
    ensures Idle(f, a + b) == Idle(Idle(f, a), b)
    decreases a
  {
    if a > 0 {
      IdleSplit(CheckActive(f), a - 1, b);
    }
  }

  /** On a switched-off point `detectFish` feeds nobody and is `checkActive`. */
  lemma InactiveDetectIsIdle(f: FoodPoint, g: Grid, arena: seq<Fish>)
    requires g.Usable() && RefsBelow(g, |arena|) && !f.active
    ensures DetectFish(f, g, arena) == Feeding(Idle(f, 1), arena, 0)
  {
  }
}

=== FILE: grid.dfy ===
/** The uniform-grid spatial index (BoidGrid.py): a `rows x columns` matrix of
    ordered cells of entity references, the position-to-cell map, the cell
    edits fish and predator use to keep themselves filed, and the three box
    queries (neighbours, flock density, first partner). */
module BoidGrid {
  import opened Common
  import opened Seqs

  /** One cell: the entities filed there, in insertion order. */
  type Cell = seq<Entity>

  datatype Grid = Grid(cellSize: nat, rows: nat, columns: nat, cells: seq<seq<Cell>>)
  {
    /** The matrix really has `rows` rows of `columns` cells. */
    predicate Shaped()
    {
      |cells| == rows && forall r :: 0 <= r < rows ==> |cells[r]| == columns
    }

    /** `cell_coords` can answer: a positive cell size and at least one cell. */
    predicate Usable()
    {
      Shaped() && cellSize > 0 && rows > 0 && columns > 0
    }

    predicate InBounds(r: int, c: int)
    {
      0 <= r < rows && 0 <= c < columns
    }

    /** Same matrix dimensions and cell size as `g`. */
    predicate SameShape(g: Grid)
    {
      cellSize == g.cellSize && rows == g.rows && columns == g.columns
    }
  }

  /** How many times `e` is filed in cell `(r, c)`. */
  function Occurs(g: Grid, e: Entity, r: int, c: int): nat
    requires g.Shaped() && g.InBounds(r, c)
  {
    multiset(g.cells[r][c])[e]
  }

  /** `e` is filed in no cell. */
  ghost predicate Unfiled(g: Grid, e: Entity)
    requires g.Shaped()
  {
    forall r, c :: g.InBounds(r, c) ==> Occurs(g, e, r, c) == 0
  }

  /** `e` is filed exactly once, in the cell of position `p`. */
  ghost predicate FiledOnceAt(g: Grid, e: Entity, p: Vec)
    requires g.Usable()
  {
    forall r, c :: g.InBounds(r, c) ==> Occurs(g, e, r, c) == (if (r, c) == CellCoords(g, p) then 1 else 0)
  }

  /** Whether an entity is filed nowhere, or once under a position, depends
      only on its counts: a grid of the same shape with the same counts for
      `e` files it the same way. */
  lemma SameCountsSameFiling(g: Grid, g': Grid, e: Entity)
    requires g.Usable() && g'.Usable() && g'.SameShape(g)
    requires forall r, c :: g.InBounds(r, c) ==> Occurs(g', e, r, c) == Occurs(g, e, r, c)
    ensures Unfiled(g, e) ==> Unfiled(g', e)
    ensures forall p :: FiledOnceAt(g, e, p) ==> FiledOnceAt(g', e, p)
  {
    forall p | FiledOnceAt(g, e, p)
      ensures FiledOnceAt(g', e, p)
    {
      assert CellCoords(g', p) == CellCoords(g, p);
    }
  }

  /** Every fish filed in the grid names an existing arena slot. */
  ghost predicate RefsBelow(g: Grid, n: nat)
    requires g.Shaped()
  {
    forall r, c, e :: g.InBounds(r, c) && e in g.cells[r][c] && e.FishRef? ==> e.id < n
  }

  /** `Grid.__init__`: whole cells that fit in the window, all empty. */
  function New(window: Window, cellSize: nat): (g: Grid)
    requires cellSize > 0
    ensures g.Shaped() && g.cellSize == cellSize
    ensures g.rows * cellSize <= window.w0 < (g.rows + 1) * cellSize
    ensures g.columns * cellSize <= window.w1 < (g.columns + 1) * cellSize
    ensures forall r, c :: g.InBounds(r, c) ==> g.cells[r][c] == []
  {
    var rows := window.w0 / cellSize;
    var columns := window.w1 / cellSize;
    DivBand(window.w0, cellSize);
    DivBand(window.w1, cellSize);
    Grid(cellSize, rows, columns, seq(rows, _ => seq(columns, _ => [])))
  }

  /** Whole cells of width `b` that fit into `a`: one more would not. */
  lemma DivBand(a: int, b: nat)
    requires b > 0
    ensures (a / b) * b <= a < (a / b + 1) * b
  {
    var q, m := a / b, a % b;
    assert a == q * b + m && 0 <= m < b;
    assert (q + 1) * b == q * b + b;
  }

  lemma ScaleBounds(v: real, cs: real, a: real)
    requires cs > 0.0
    ensures a <= v / cs <==> a * cs <= v
    ensures v / cs < a <==> v < a * cs
  {
    assert (v / cs) * cs == v;
    if a <= v / cs {
      assert a * cs <= (v / cs) * cs;
    }
    if a * cs <= v {
      assert a * cs / cs <= v / cs;
    }
  }

  /** One coordinate of `cell_coords`: `int(v / cell_size)` clipped to `[0, n-1]`. */
  function CellIndex(v: real, cs: nat, n: nat): (k: int)
    requires cs > 0 && n > 0
    ensures 0 <= k < n
  {
    ClipInt(Trunc(v / cs as real), 0, n - 1)
  }

  /** What a cell index means: inside the gridded span it is the cell whose
      band contains `v`; anything before the first band maps to cell 0 and
      anything from the last band on maps to cell `n-1`. */
  lemma CellIndexBand(v: real, cs: nat, n: nat)
    requires cs > 0 && n > 0
    ensures var k := CellIndex(v, cs, n);
      && (0.0 <= v < n as real * cs as real ==> k as real * cs as real <= v < (k + 1) as real * cs as real)
      && (v < cs as real ==> k == 0)
      && ((n - 1) as real * cs as real <= v ==> k == n - 1)
  {
    if 0.0 <= v < n as real * cs as real {
      CellIndexInside(v, cs, n);
    }
    if v < cs as real {
      CellIndexLow(v, cs, n);
    }
    if (n - 1) as real * cs as real <= v {
      CellIndexHigh(v, cs, n);
    }
  }

  lemma CellIndexInside(v: real, cs: nat, n: nat)
    requires cs > 0 && n > 0 && 0.0 <= v < n as real * cs as real
    ensures var k := CellIndex(v, cs, n); k as real * cs as real <= v < (k + 1) as real * cs as real
  {
    var c := cs as real;
    var t := Trunc(v / c);
    TruncBand(v, c);
    ScaleBounds(v, c, n as real);
    assert t < n;
  }

  lemma CellIndexLow(v: real, cs: nat, n: nat)
    requires cs > 0 && n > 0 && v < cs as real
    ensures CellIndex(v, cs, n) == 0
  {
    var c := cs as real;
    TruncBand(v, c);
    if 0.0 <= v {
      ScaleBounds(v, c, 1.0);
    }
  }

  lemma CellIndexHigh(v: real, cs: nat, n: nat)
    requires cs > 0 && n > 0 && (n - 1) as real * cs as real <= v
    ensures CellIndex(v, cs, n) == n - 1
  {
    var c := cs as real;
    var m := (n - 1) as real;
    assert 0.0 <= m * c;
    TruncBand(v, c);
    ScaleBounds(v, c, m);
  }

  /** The truncated quotient `int(v / c)` names the band of width `c` that
      holds a non-negative `v`, and is at most 0 for a negative one. */
  lemma TruncBand(v: real, c: real)
    requires c > 0.0
    ensures var t := Trunc(v / c);
      && (0.0 <= v ==> 0 <= t && t as real * c <= v < (t + 1) as real * c && t as real <= v / c < (t + 1) as real)
      && (v < 0.0 ==> t <= 0)
  {
    var t := Trunc(v / c);
    if 0.0 <= v {
      assert 0.0 <= v / c;
      ScaleBounds(v, c, t as real);
      ScaleBounds(v, c, (t + 1) as real);
    } else {
      assert v / c < 0.0;
    }
  }

  /** `cell_coords(x, y)`: the row comes from `y`, the column from `x`, and the
      pair always indexes an existing cell. */
  function CellCoords(g: Grid, p: Vec): (rc: (int, int))
    requires g.Usable()
    ensures g.InBounds(rc.0, rc.1)
    ensures rc.0 == CellIndex(p.y, g.cellSize, g.rows)
    ensures rc.1 == CellIndex(p.x, g.cellSize, g.columns)
  {
    (CellIndex(p.y, g.cellSize, g.rows), CellIndex(p.x, g.cellSize, g.columns))
  }

  /** Replace one cell. */
  function SetCell(g: Grid, r: int, c: int, cell: Cell): (g': Grid)
    requires g.Shaped() && g.InBounds(r, c)
    ensures g'.Shaped() && g'.SameShape(g)
    ensures g'.cells[r][c] == cell
    ensures forall r', c' :: g.InBounds(r', c') && (r', c') != (r, c) ==> g'.cells[r'][c'] == g.cells[r'][c']
  {
    g.(cells := g.cells[r := g.cells[r][c := cell]])
  }

  /** `addFish`: append `e` to the end of the cell of `p`; no other cell changes. */
  function AddFish(g: Grid, e: Entity, p: Vec): (g': Grid)
    requires g.Usable()
    ensures g'.Usable() && g'.SameShape(g)
    ensures var rc := CellCoords(g, p); g'.cells[rc.0][rc.1] == g.cells[rc.0][rc.1] + [e]
    ensures forall r, c :: g.InBounds(r, c) && (r, c) != CellCoords(g, p) ==> g'.cells[r][c] == g.cells[r][c]
  {
    var rc := CellCoords(g, p);
    SetCell(g, rc.0, rc.1, g.cells[rc.0][rc.1] + [e])
  }

  /** Filing an entity that is filed nowhere files it exactly once. */
  lemma AddUnfiled(g: Grid, e: Entity, p: Vec)
    requires g.Usable()
    ensures Unfiled(g, e) ==> FiledOnceAt(AddFish(g, e, p), e, p)
  {
    var g' := AddFish(g, e, p);
    var rc := CellCoords(g, p);
    assert CellCoords(g', p) == rc;
    if Unfiled(g, e) {
      forall r, c | g.InBounds(r, c)
        ensures Occurs(g', e, r, c) == (if (r, c) == rc then 1 else 0)
      {
        assert Occurs(g, e, r, c) == 0;
        if (r, c) == rc {
          assert g'.cells[r][c] == g.cells[r][c] + [e];
        }
      }
    }
  }

  /** `removeFish`: drop the first `e` from the cell of `at` when a position is
      supplied, else of the current position `cur`, keeping the rest of the
      cell in order; a no-op when `e` is not there; no other cell changes. */
  function RemoveFish(g: Grid, e: Entity, cur: Vec, at: Option<Vec>): (g': Grid)
    requires g.Usable()
    ensures g'.Usable() && g'.SameShape(g)
    ensures var rc := CellCoords(g, if at.Some? then at.value else cur);
      && g'.cells[rc.0][rc.1] == RemoveFirst(g.cells[rc.0][rc.1], e)
      && multiset(g'.cells[rc.0][rc.1]) == multiset(g.cells[rc.0][rc.1]) - multiset{e}
      && (e !in g.cells[rc.0][rc.1] ==> g' == g)
    ensures forall r, c :: (g.InBounds(r, c) && (r, c) != CellCoords(g, if at.Some? then at.value else cur)
      ==> g'.cells[r][c] == g.cells[r][c])
  {
    var p := if at.Some? then at.value else cur;
    var rc := CellCoords(g, p);
    if e in g.cells[rc.0][rc.1] then SetCell(g, rc.0, rc.1, RemoveFirst(g.cells[rc.0][rc.1], e))
    else g
  }

  /** Removal undoes addition: filing an entity that its cell does not yet
      hold and then removing it from the same position gives the grid back. */
  lemma AddThenRemove(g: Grid, e: Entity, p: Vec)
    requires g.Usable()
    requires var rc := CellCoords(g, p); e !in g.cells[rc.0][rc.1]
    ensures RemoveFish(AddFish(g, e, p), e, p, None) == g
  {
    var rc := CellCoords(g, p);
    var cell := g.cells[rc.0][rc.1];
    var g1 := AddFish(g, e, p);
    assert CellCoords(g1, p) == rc;
    RemoveAppended(cell, e);
    var g2 := RemoveFish(g1, e, p, None);
    assert g2 == SetCell(g1, rc.0, rc.1, cell);
    assert g1.cells[rc.0][rc.1 := cell] == g.cells[rc.0];
    assert g2.cells == g1.cells[rc.0 := g.cells[rc.0]] == g.cells;
  }

  /** `wipeFish`: one removal per cell, over the whole matrix: each cell loses
      the first copy of the entity and keeps the rest in order. An entity
      filed at most once per cell is gone from the grid afterwards, and every
      other entity keeps its count in every cell. */
  function WipeFish(g: Grid, e: Entity): (g': Grid)
    requires g.Usable()
    ensures g'.Usable() && g'.SameShape(g)
    ensures forall r, c :: g.InBounds(r, c) ==> g'.cells[r][c] == RemoveFirst(g.cells[r][c], e)
    ensures forall r, c :: g.InBounds(r, c) ==>
      multiset(g'.cells[r][c]) == multiset(g.cells[r][c]) - multiset{e}
    ensures forall r, c :: g.InBounds(r, c) && Occurs(g, e, r, c) <= 1 ==> e !in g'.cells[r][c]
  {
    var cells := seq(g.rows, r requires 0 <= r < g.rows =>
      seq(g.columns, c requires 0 <= c < g.columns => RemoveFirst(g.cells[r][c], e)));
    var g' := g.(cells := cells);
    forall r, c | g.InBounds(r, c)
      ensures multiset(g'.cells[r][c]) == multiset(g.cells[r][c]) - multiset{e}
      ensures Occurs(g, e, r, c) <= 1 ==> e !in g'.cells[r][c]
    {
      assert g'.cells[r][c] == RemoveFirst(g.cells[r][c], e);
      if Occurs(g, e, r, c) <= 1 {
        RemoveLast(g.cells[r][c], e);
      }
    }
    g'
  }

  /** Wiping `e` leaves it filed nowhere if it was filed at most once per
      cell (`WipeClears`), and leaves another entity's filing as it was
      (`WipeFiling`). */
  lemma WipeClears(g: Grid, e: Entity)
    requires g.Usable()
    ensures (forall r, c :: g.InBounds(r, c) ==> Occurs(g, e, r, c) <= 1) ==> Unfiled(WipeFish(g, e), e)
  {
  }

  lemma WipeFiling(g: Grid, e: Entity, x: Entity)
    requires g.Usable() && x != e
    ensures Unfiled(g, x) ==> Unfiled(WipeFish(g, e), x)
    ensures forall p :: FiledOnceAt(g, x, p) ==> FiledOnceAt(WipeFish(g, e), x, p)
  {
    var g' := WipeFish(g, e);
    forall r, c | g.InBounds(r, c)
      ensures Occurs(g', x, r, c) == Occurs(g, x, r, c)
    {
      assert multiset(g'.cells[r][c]) == multiset(g.cells[r][c]) - multiset{e};
    }
    SameCountsSameFiling(g, g', x);
  }

  /** Removing one `e` from a cell holding at most one leaves none. */
  lemma RemoveLast(cell: Cell, e: Entity)
    requires multiset(cell)[e] <= 1
    ensures e !in RemoveFirst(cell, e)
  {
    assert multiset(RemoveFirst(cell, e))[e] == 0;
  }

  /** `updateFish`: file `e` under its new position `cur`, then drop it from the
      cell of its old position. If `e` was filed exactly once, under the old
      position, it ends up filed exactly once, under the new one (also when
      the two cells coincide); no other entity's filing changes. */
  function UpdateFish(g: Grid, e: Entity, cur: Vec, prev: Vec): (g': Grid)
    requires g.Usable()
    ensures g'.Usable() && g'.SameShape(g)
    ensures FiledOnceAt(g, e, prev) ==> FiledOnceAt(g', e, cur)
    ensures forall x, r, c :: x != e && g.InBounds(r, c) ==> Occurs(g', x, r, c) == Occurs(g, x, r, c)
  {
    RelocateSingle(g, e, cur, prev);
    RemoveFish(AddFish(g, e, cur), e, cur, Some(prev))
  }

  lemma RelocateSingle(g: Grid, e: Entity, cur: Vec, prev: Vec)
    requires g.Usable()
    ensures var g' := RemoveFish(AddFish(g, e, cur), e, cur, Some(prev));
      && (FiledOnceAt(g, e, prev) ==> FiledOnceAt(g', e, cur))
      && (forall x, r, c :: x != e && g.InBounds(r, c) ==> Occurs(g', x, r, c) == Occurs(g, x, r, c))
  {
    if FiledOnceAt(g, e, prev) {
      RelocateMoves(g, e, cur, prev);
    }
    RelocateOthers(g, e, cur, prev);
  }

  lemma RelocateMoves(g: Grid, e: Entity, cur: Vec, prev: Vec)
    requires g.Usable()
    requires FiledOnceAt(g, e, prev)
    ensures var g' := RemoveFish(AddFish(g, e, cur), e, cur, Some(prev));
      FiledOnceAt(g', e, cur)
  {
    var g' := RemoveFish(AddFish(g, e, cur), e, cur, Some(prev));
    assert CellCoords(g', cur) == CellCoords(g, cur);
    forall r, c | g'.InBounds(r, c)
      ensures Occurs(g', e, r, c) == (if (r, c) == CellCoords(g', cur) then 1 else 0)
    {
      RelocateCellOnce(g, e, cur, prev, r, c);
    }
  }

  lemma RelocateCellOnce(g: Grid, e: Entity, cur: Vec, prev: Vec, r: int, c: int)
    requires g.Usable() && g.InBounds(r, c)
    requires Occurs(g, e, r, c) == (if (r, c) == CellCoords(g, prev) then 1 else 0)
    ensures Occurs(RemoveFish(AddFish(g, e, cur), e, cur, Some(prev)), e, r, c) == (if (r, c) == CellCoords(g, cur) then 1 else 0)
  {
    RelocateCell(g, e, cur, prev, r, c);
  }

  lemma RelocateOthers(g: Grid, e: Entity, cur: Vec, prev: Vec)
    requires g.Usable()
    ensures var g' := RemoveFish(AddFish(g, e, cur), e, cur, Some(prev));
      forall x, r, c :: x != e && g.InBounds(r, c) ==> Occurs(g', x, r, c) == Occurs(g, x, r, c)
  {
    var g' := RemoveFish(AddFish(g, e, cur), e, cur, Some(prev));
    forall x, r, c | x != e && g.InBounds(r, c)
      ensures Occurs(g', x, r, c) == Occurs(g, x, r, c)
    {
      RelocateCellOther(g, e, cur, prev, r, c, x);
    }
  }

  lemma RelocateCellOther(g: Grid, e: Entity, cur: Vec, prev: Vec, r: int, c: int, x: Entity)
    requires g.Usable() && g.InBounds(r, c) && x != e
    ensures Occurs(RemoveFish(AddFish(g, e, cur), e, cur, Some(prev)), x, r, c) == Occurs(g, x, r, c)
  {
    RelocateCell(g, e, cur, prev, r, c);
  }

  /** An entity filed nowhere (the population at start-up, and every child)
      stays filed nowhere while its updates keep it in one cell, and the
      first update that crosses into another cell files it exactly once,
      under the new position. */
  lemma UnfiledRelocate(g: Grid, e: Entity, cur: Vec, prev: Vec)
    requires g.Usable()
    requires Unfiled(g, e)
    ensures var g' := UpdateFish(g, e, cur, prev);
      if CellCoords(g, cur) != CellCoords(g, prev) then FiledOnceAt(g', e, cur) else Unfiled(g', e)
  {
    var g' := UpdateFish(g, e, cur, prev);
    assert CellCoords(g', cur) == CellCoords(g, cur);
    if CellCoords(g, cur) != CellCoords(g, prev) {
      forall r, c | g'.InBounds(r, c)
        ensures Occurs(g', e, r, c) == (if (r, c) == CellCoords(g', cur) then 1 else 0)
      {
        UnfiledCell(g, e, cur, prev, r, c);
      }
    } else {
      forall r, c | g'.InBounds(r, c)
        ensures Occurs(g', e, r, c) == 0
      {
        UnfiledCell(g, e, cur, prev, r, c);
      }
    }
  }

  lemma UnfiledCell(g: Grid, e: Entity, cur: Vec, prev: Vec, r: int, c: int)
    requires g.Usable() && g.InBounds(r, c) && Occurs(g, e, r, c) == 0
    ensures Occurs(RemoveFish(AddFish(g, e, cur), e, cur, Some(prev)), e, r, c)
      == (if CellCoords(g, cur) != CellCoords(g, prev) && (r, c) == CellCoords(g, cur) then 1 else 0)
  {
    RelocateCell(g, e, cur, prev, r, c);
  }

  /** Cell by cell, relocating adds one `e` under the new position and then
      takes one away under the old one. */
  lemma RelocateCell(g: Grid, e: Entity, cur: Vec, prev: Vec, r: int, c: int)
    requires g.Usable() && g.InBounds(r, c)
    ensures var g' := RemoveFish(AddFish(g, e, cur), e, cur, Some(prev));
      multiset(g'.cells[r][c]) ==
        multiset(g.cells[r][c])
        + (if (r, c) == CellCoords(g, cur) then multiset{e} else multiset{})
        - (if (r, c) == CellCoords(g, prev) then multiset{e} else multiset{})
  {
    var n := CellCoords(g, cur);
    var o := CellCoords(g, prev);
    var g1 := AddFish(g, e, cur);
    var g' := RemoveFish(g1, e, cur, Some(prev));
    assert CellCoords(g1, prev) == o;
    var mid := multiset(g1.cells[r][c]);
    assert mid == multiset(g.cells[r][c]) + (if (r, c) == n then multiset{e} else multiset{});
    assert multiset(g'.cells[r][c]) == mid - (if (r, c) == o then multiset{e} else multiset{});
  }

  /** The predator's relocation (`PredatorBoid.update`): take the entity out
      of the cell of its current position, then file it under the new one.
      The same single-occurrence guarantee as `UpdateFish` holds. */
  function MoveFish(g: Grid, e: Entity, prev: Vec, cur: Vec): (g': Grid)
    requires g.Usable()
    ensures g'.Usable() && g'.SameShape(g)
    ensures FiledOnceAt(g, e, prev) ==> FiledOnceAt(g', e, cur)
    ensures forall x, r, c :: x != e && g.InBounds(r, c) ==> Occurs(g', x, r, c) == Occurs(g, x, r, c)
  {
    MoveSingle(g, e, prev, cur);
    AddFish(RemoveFish(g, e, prev, None), e, cur)
  }

  lemma MoveSingle(g: Grid, e: Entity, prev: Vec, cur: Vec)
    requires g.Usable()
    ensures var g' := AddFish(RemoveFish(g, e, prev, None), e, cur);
      && (FiledOnceAt(g, e, prev) ==> FiledOnceAt(g', e, cur))
      && (forall x, r, c :: x != e && g.InBounds(r, c) ==> Occurs(g', x, r, c) == Occurs(g, x, r, c))
  {
    if FiledOnceAt(g, e, prev) {
      MoveMoves(g, e, prev, cur);
    }
    MoveOthers(g, e, prev, cur);
  }

  lemma MoveMoves(g: Grid, e: Entity, prev: Vec, cur: Vec)
    requires g.Usable()
    requires FiledOnceAt(g, e, prev)
    ensures var g' := AddFish(RemoveFish(g, e, prev, None), e, cur);
      FiledOnceAt(g', e, cur)
  {
    var g' := AddFish(RemoveFish(g, e, prev, None), e, cur);
    assert CellCoords(g', cur) == CellCoords(g, cur);
    forall r, c | g'.InBounds(r, c)
      ensures Occurs(g', e, r, c) == (if (r, c) == CellCoords(g', cur) then 1 else 0)
    {
      MoveCellOnce(g, e, prev, cur, r, c);
    }
  }

  lemma MoveCellOnce(g: Grid, e: Entity, prev: Vec, cur: Vec, r: int, c: int)
    requires g.Usable() && g.InBounds(r, c)
    requires Occurs(g, e, r, c) == (if (r, c) == CellCoords(g, prev) then 1 else 0)
    ensures Occurs(AddFish(RemoveFish(g, e, prev, None), e, cur), e, r, c) == (if (r, c) == CellCoords(g, cur) then 1 else 0)
  {
    MoveCell(g, e, prev, cur, r, c);
  }

  lemma MoveOthers(g: Grid, e: Entity, prev: Vec, cur: Vec)
    requires g.Usable()
    ensures var g' := AddFish(RemoveFish(g, e, prev, None), e, cur);
      forall x, r, c :: x != e && g.InBounds(r, c) ==> Occurs(g', x, r, c) == Occurs(g, x, r, c)
  {
    var g' := AddFish(RemoveFish(g, e, prev, None), e, cur);
    forall x, r, c | x != e && g.InBounds(r, c)
      ensures Occurs(g', x, r, c) == Occurs(g, x, r, c)
    {
      MoveCellOther(g, e, prev, cur, r, c, x);
    }
  }

  lemma MoveCellOther(g: Grid, e: Entity, prev: Vec, cur: Vec, r: int, c: int, x: Entity)
    requires g.Usable() && g.InBounds(r, c) && x != e
    ensures Occurs(AddFish(RemoveFish(g, e, prev, None), e, cur), x, r, c) == Occurs(g, x, r, c)
  {
    MoveCell(g, e, prev, cur, r, c);
  }

  /** Cell by cell, moving takes one `e` away under the old position and then
      adds one under the new one. */
  lemma MoveCell(g: Grid, e: Entity, prev: Vec, cur: Vec, r: int, c: int)
    requires g.Usable() && g.InBounds(r, c)
    ensures var g' := AddFish(RemoveFish(g, e, prev, None), e, cur);
      multiset(g'.cells[r][c]) ==
        multiset(g.cells[r][c])
        - (if (r, c) == CellCoords(g, prev) then multiset{e} else multiset{})
        + (if (r, c) == CellCoords(g, cur) then multiset{e} else multiset{})
  {
    var n := CellCoords(g, cur);
    var o := CellCoords(g, prev);
    var g1 := RemoveFish(g, e, prev, None);
    var g' := AddFish(g1, e, cur);
    assert CellCoords(g1, cur) == n;
    var mid := multiset(g1.cells[r][c]);
    assert mid == multiset(g.cells[r][c]) - (if (r, c) == o then multiset{e} else multiset{});
    assert multiset(g'.cells[r][c]) == mid + (if (r, c) == n then multiset{e} else multiset{});
  }

  /** Moving keeps the arena references valid. */
  lemma MoveKeepsRefs(g: Grid, e: Entity, prev: Vec, cur: Vec, n: nat)
    requires g.Usable() && RefsBelow(g, n)
    requires e.FishRef? ==> e.id < n
    ensures RefsBelow(MoveFish(g, e, prev, cur), n)
  {
    RemoveKeepsRefs(g, e, prev, None, n);
    AddKeepsRefs(RemoveFish(g, e, prev, None), e, cur, n);
  }

  /** Adding and removing keep the arena references valid. */
  lemma AddKeepsRefs(g: Grid, e: Entity, p: Vec, n: nat)
    requires g.Usable() && RefsBelow(g, n) && (e.FishRef? ==> e.id < n)
    ensures RefsBelow(AddFish(g, e, p), n)
  {
    var g' := AddFish(g, e, p);
    forall r, c, x | g.InBounds(r, c) && x in g'.cells[r][c] && x.FishRef?
      ensures x.id < n
    {
      if (r, c) == CellCoords(g, p) {
        assert x in g.cells[r][c] || x == e;
      }
    }
  }

  lemma RemoveKeepsRefs(g: Grid, e: Entity, cur: Vec, at: Option<Vec>, n: nat)
    requires g.Usable() && RefsBelow(g, n)
    ensures RefsBelow(RemoveFish(g, e, cur, at), n)
  {
    var g' := RemoveFish(g, e, cur, at);
    forall r, c, x | g.InBounds(r, c) && x in g'.cells[r][c] && x.FishRef?
      ensures x.id < n
    {
      assert x in multiset(g'.cells[r][c]);
      assert x in multiset(g.cells[r][c]);
    }
  }

  lemma WipeKeepsRefs(g: Grid, e: Entity, n: nat)
    requires g.Usable() && RefsBelow(g, n)
    ensures RefsBelow(WipeFish(g, e), n)
  {
    var g' := WipeFish(g, e);
    forall r, c, x | g.InBounds(r, c) && x in g'.cells[r][c] && x.FishRef?
      ensures x.id < n
    {
      assert x in multiset(g'.cells[r][c]);
      assert x in multiset(g.cells[r][c]);
    }
  }

  lemma UpdateKeepsRefs(g: Grid, e: Entity, cur: Vec, prev: Vec, n: nat)
    requires g.Usable() && RefsBelow(g, n) && (e.FishRef? ==> e.id < n)
    ensures RefsBelow(UpdateFish(g, e, cur, prev), n)
  {
    AddKeepsRefs(g, e, cur, n);
    RemoveKeepsRefs(AddFish(g, e, cur), e, cur, Some(prev), n);
  }

  // ---------------------------------------------------------------------
  // Box queries. Every query visits the cells at row offsets -k..k (outer)
  // and column offsets -k..k (inner) around the centre cell, and looks only
  // at cells with 0 < row < rows and 0 < column < columns: row 0 and
  // column 0 are never scanned, the last row and column are.
  // ---------------------------------------------------------------------

  /** The boundary test shared by the three queries. */
  predicate Qualifies(g: Grid, r: int, c: int)
  {
    0 < r < g.rows && 0 < c < g.columns
  }

  /** A cell as seen by a query: its contents if it qualifies, else nothing. */
  function CellAt(g: Grid, r: int, c: int): Cell
    requires g.Shaped()
  {
    if Qualifies(g, r, c) then g.cells[r][c] else []
  }

  /** Row `r`, columns `c0..c1`, concatenated left to right. */
  function ScanRow(g: Grid, r: int, c0: int, c1: int): seq<Entity>
    requires g.Shaped()
    decreases c1 - c0
  {
    if c1 < c0 then [] else ScanRow(g, r, c0, c1 - 1) + CellAt(g, r, c1)
  }

  /** Rows `r0..r1` of columns `c0..c1`, concatenated in raster order. */
  function ScanBox(g: Grid, r0: int, r1: int, c0: int, c1: int): seq<Entity>
    requires g.Shaped()
    decreases r1 - r0
  {
    if r1 < r0 then [] else ScanBox(g, r0, r1 - 1, c0, c1) + ScanRow(g, r1, c0, c1)
  }

  /** The reference result of `get_neighbour`: the `(2k+1)^2` box around the
      cell of `p`, qualifying cells only, in raster order. */
  function Neighbours(g: Grid, p: Vec, k: nat): seq<Entity>
    requires g.Usable()
  {
    Around(g, CellCoords(g, p), k)
  }

  /** The box of radius `k` around cell `rc`. */
  function Around(g: Grid, rc: (int, int), k: nat): seq<Entity>
    requires g.Shaped()
  {
    ScanBox(g, rc.0 - k, rc.0 + k, rc.1 - k, rc.1 + k)
  }

  /** The reference result of `getPartner`: the first entity of the 7x7 box
      in raster order, which is the first element of the first non-empty
      qualifying cell (not the nearest entity, and possibly the caller). */
  function Partner(g: Grid, p: Vec): Option<Entity>
    requires g.Usable()
  {
    var nbs := Neighbours(g, p, 3);
    if |nbs| > 0 then Some(nbs[0]) else None
  }

  /** `e` is filed in some qualifying cell of rows `r0..r1`, columns `c0..c1`. */
  ghost predicate FiledIn(g: Grid, r0: int, r1: int, c0: int, c1: int, e: Entity)
    requires g.Shaped()
  {
    exists r, c :: r0 <= r <= r1 && c0 <= c <= c1 && e in CellAt(g, r, c)
  }

  lemma {:induction false} InScanRow(g: Grid, r: int, c0: int, c1: int, e: Entity)
    requires g.Shaped()
    ensures e in ScanRow(g, r, c0, c1) <==> exists c :: c0 <= c <= c1 && e in CellAt(g, r, c)
    decreases c1 - c0
  {
    if c1 >= c0 {
      InScanRow(g, r, c0, c1 - 1, e);
      if e in ScanRow(g, r, c0, c1) && e !in ScanRow(g, r, c0, c1 - 1) {
        assert e in CellAt(g, r, c1);
      }
    }
  }

  lemma {:induction false} InScanBox(g: Grid, r0: int, r1: int, c0: int, c1: int, e: Entity)
    requires g.Shaped()
    ensures e in ScanBox(g, r0, r1, c0, c1) <==> FiledIn(g, r0, r1, c0, c1, e)
    decreases r1 - r0
  {
    if r1 >= r0 {
      InScanBox(g, r0, r1 - 1, c0, c1, e);
      InScanRow(g, r1, c0, c1, e);
      if e in ScanBox(g, r0, r1, c0, c1) && e !in ScanBox(g, r0, r1 - 1, c0, c1) {
        assert e in ScanRow(g, r1, c0, c1);
        var c :| c0 <= c <= c1 && e in CellAt(g, r1, c);
        assert r0 <= r1 <= r1 && e in CellAt(g, r1, c);
      }
      if FiledIn(g, r0, r1, c0, c1, e) {
        var r, c :| r0 <= r <= r1 && c0 <= c <= c1 && e in CellAt(g, r, c);
        if r == r1 {
          assert e in ScanRow(g, r1, c0, c1);
        } else {
          assert e in ScanBox(g, r0, r1 - 1, c0, c1);
        }
      }
    }
  }

  /** `get_neighbour` holds exactly the entities filed in a qualifying cell of
      the box around the centre's cell. */
  lemma NeighbourMembership(g: Grid, p: Vec, k: nat, e: Entity)
    requires g.Usable()
    ensures var rc := CellCoords(g, p);
      e in Neighbours(g, p, k) <==> FiledIn(g, rc.0 - k, rc.0 + k, rc.1 - k, rc.1 + k, e)
  {
    AroundMembership(g, CellCoords(g, p), k, e);
  }

  lemma AroundMembership(g: Grid, rc: (int, int), k: nat, e: Entity)
    requires g.Shaped()
    ensures e in Around(g, rc, k) <==> FiledIn(g, rc.0 - k, rc.0 + k, rc.1 - k, rc.1 + k, e)
  {
    var r0, r1, c0, c1 := rc.0 - k, rc.0 + k, rc.1 - k, rc.1 + k;
    InScanBox(g, r0, r1, c0, c1, e);
    assert Around(g, rc, k) == ScanBox(g, r0, r1, c0, c1);
  }

  /** The caller itself is among its neighbours whenever its own cell qualifies. */
  lemma NeighboursIncludeOwnCell(g: Grid, p: Vec, k: nat, e: Entity)
    requires g.Usable()
    requires var rc := CellCoords(g, p); Qualifies(g, rc.0, rc.1) && e in g.cells[rc.0][rc.1]
    ensures e in Neighbours(g, p, k)
  {
    var rc := CellCoords(g, p);
    NeighbourMembership(g, p, k, e);
    assert e in CellAt(g, rc.0, rc.1);
  }

  /** An entity filed only in row 0 or column 0 is returned by no query,
      whatever the centre and the range. */
  lemma EdgeCellsInvisible(g: Grid, p: Vec, k: nat, e: Entity)
    requires g.Usable()
    requires forall r, c :: Qualifies(g, r, c) ==> e !in g.cells[r][c]
    ensures e !in Neighbours(g, p, k)
    ensures Partner(g, p) != Some(e)
  {
    NeighbourMembership(g, p, k, e);
    NeighbourMembership(g, p, 3, e);
  }

  /** An entity filed nowhere is nobody's neighbour and nobody's partner. */
  lemma UnfiledInvisible(g: Grid, p: Vec, k: nat, e: Entity)
    requires g.Usable()
    ensures Unfiled(g, e) ==> e !in Neighbours(g, p, k) && Partner(g, p) != Some(e)
  {
    if Unfiled(g, e) {
      forall r, c | Qualifies(g, r, c)
        ensures e !in g.cells[r][c]
      {
        assert Occurs(g, e, r, c) == 0;
      }
      EdgeCellsInvisible(g, p, k, e);
    }
  }

  /** Every neighbour is filed somewhere in the grid, so it names a valid arena slot. */
  lemma NeighboursBelow(g: Grid, p: Vec, k: nat, n: nat)
    requires g.Usable() && RefsBelow(g, n)
    ensures forall e :: e in Neighbours(g, p, k) && e.FishRef? ==> e.id < n
  {
    forall e | e in Neighbours(g, p, k) && e.FishRef?
      ensures e.id < n
    {
      NeighbourMembership(g, p, k, e);
      var rc := CellCoords(g, p);
      var r, c :| rc.0 - k <= r <= rc.0 + k && rc.1 - k <= c <= rc.1 + k && e in CellAt(g, r, c);
      assert g.InBounds(r, c) && e in g.cells[r][c];
    }
  }

  lemma {:induction false} RowPrefix(g: Grid, r: int, c0: int, cj: int, c1: int)
    requires g.Shaped() && c0 - 1 <= cj <= c1
    ensures ScanRow(g, r, c0, cj) <= ScanRow(g, r, c0, c1)
    decreases c1 - cj
  {
    if cj < c1 {
      RowPrefix(g, r, c0, cj, c1 - 1);
    }
  }

  lemma {:induction false} BoxPrefix(g: Grid, r0: int, ri: int, r1: int, c0: int, c1: int)
    requires g.Shaped() && r0 - 1 <= ri <= r1
    ensures ScanBox(g, r0, ri, c0, c1) <= ScanBox(g, r0, r1, c0, c1)
    decreases r1 - ri
  {
    if ri < r1 {
      BoxPrefix(g, r0, ri, r1 - 1, c0, c1);
    }
  }

  /** `get_neighbour(fish, vision_range)` as the source's double loop. */
  method GetNeighbour(g: Grid, p: Vec, k: nat) returns (nbs: seq<Entity>)
    requires g.Usable()
    ensures nbs == Neighbours(g, p, k)
  {
    var rc := CellCoords(g, p);
    nbs := CollectBox(g, rc.0, rc.1, k);
  }

  /** The double loop itself, around cell `(row, column)`. */
  method CollectBox(g: Grid, row: int, column: int, k: nat) returns (nbs: seq<Entity>)
    requires g.Shaped()
    ensures nbs == ScanBox(g, row - k, row + k, column - k, column + k)
  {
    nbs := [];
    var i: int := -(k as int);
    while i <= k
      invariant -(k as int) <= i <= k + 1
      invariant nbs == ScanBox(g, row - k, row + i - 1, column - k, column + k)
    {
      var cells := CollectRow(g, row + i, column - k, column + k);
      nbs := nbs + cells;
      i := i + 1;
    }
  }

  /** The inner loop of `get_neighbour`: one row of the box, left to right. */
  method CollectRow(g: Grid, r: int, c0: int, c1: int) returns (cells: seq<Entity>)
    requires g.Shaped()
    ensures cells == ScanRow(g, r, c0, c1)
  {
    cells := [];
    var c := c0;
    while c <= c1
      invariant c0 <= c <= c1 + 1 || (c == c0 && c1 < c0)
      invariant cells == ScanRow(g, r, c0, c - 1)
    {
      cells := cells + CellAt(g, r, c);
      c := c + 1;
    }
  }

  /** `count_flock`: true as soon as more than three entities have been seen
      in the 5x5 box. The early exit does not change the answer: it is true
      exactly when the whole box holds more than three. */
  method CountFlock(g: Grid, p: Vec) returns (inFlock: bool)
    requires g.Usable()
    ensures inFlock <==> |Neighbours(g, p, 2)| > 3
  {
    var rc := CellCoords(g, p);
    inFlock := CountBox(g, rc.0, rc.1, 2, 3);
  }

  /** The early-exit loop of `count_flock` around cell `(row, column)`:
      the source fixes the range at 2 and the threshold at 3. */
  method CountBox(g: Grid, row: int, column: int, k: nat, threshold: nat) returns (inFlock: bool)
    requires g.Shaped()
    ensures inFlock <==> |ScanBox(g, row - k, row + k, column - k, column + k)| > threshold
  {
    inFlock := CountRows(g, row - k, row - k, row + k, column - k, column + k, 0, threshold);
  }

  /** The outer loop of `count_flock` from row `r` on, having counted
      `before` entities in rows `r0..r-1`. */
  method CountRows(g: Grid, r0: int, r: int, r1: int, c0: int, c1: int, before: nat, threshold: nat)
    returns (inFlock: bool)
    requires g.Shaped() && r0 <= r <= r1 + 1 && before == |ScanBox(g, r0, r - 1, c0, c1)| <= threshold
    ensures inFlock <==> |ScanBox(g, r0, r1, c0, c1)| > threshold
    decreases r1 - r
  {
    if r > r1 {
      return false;
    }
    var count, over := CountRow(g, r0, r, c0, c1, before, threshold);
    if over {
      BoxPrefixLength(g, r0, r, r1, c0, c1);
      return true;
    }
    inFlock := CountRows(g, r0, r + 1, r1, c0, c1, count, threshold);
  }

  /** The inner loop of `count_flock` over row `r`, starting from the count
      `before` of rows `r0..r-1`: it stops as soon as the running count
      passes the threshold. */
  method CountRow(g: Grid, r0: int, r: int, c0: int, c1: int, before: nat, threshold: nat)
    returns (count: nat, over: bool)
    requires g.Shaped() && r0 <= r && before == |ScanBox(g, r0, r - 1, c0, c1)| <= threshold
    ensures over <==> |ScanBox(g, r0, r, c0, c1)| > threshold
    ensures !over ==> count == |ScanBox(g, r0, r, c0, c1)|
  {
    BoxStep(g, r0, r, c0, c1);
    count := before;
    var c := c0;
    while c <= c1
      invariant c0 <= c <= c1 + 1 || (c == c0 && c1 < c0)
      invariant count == before + |ScanRow(g, r, c0, c - 1)| <= threshold
    {
      count := count + |CellAt(g, r, c)|;
      if count > threshold {
        RowPrefixLength(g, r, c0, c, c1);
        return count, true;
      }
      c := c + 1;
    }
    return count, false;
  }

  lemma RowPrefixLength(g: Grid, r: int, c0: int, cj: int, c1: int)
    requires g.Shaped() && c0 <= cj <= c1
    ensures |ScanRow(g, r, c0, cj)| <= |ScanRow(g, r, c0, c1)|
  {
    RowPrefix(g, r, c0, cj, c1);
  }

  lemma BoxPrefixLength(g: Grid, r0: int, ri: int, r1: int, c0: int, c1: int)
    requires g.Shaped() && r0 <= ri <= r1
    ensures |ScanBox(g, r0, ri, c0, c1)| <= |ScanBox(g, r0, r1, c0, c1)|
  {
    BoxPrefix(g, r0, ri, r1, c0, c1);
  }

  lemma BoxStep(g: Grid, r0: int, r1: int, c0: int, c1: int)
    requires g.Shaped() && r0 <= r1
    ensures |ScanBox(g, r0, r1, c0, c1)| == |ScanBox(g, r0, r1 - 1, c0, c1)| + |ScanRow(g, r1, c0, c1)|
  {
  }

  /** `getPartner`: scan the 7x7 box and return the first entity met, or
      nothing when every qualifying cell is empty. */
  method GetPartner(g: Grid, p: Vec) returns (partner: Option<Entity>)
    requires g.Usable()
    ensures partner == Partner(g, p)
  {
    var rc := CellCoords(g, p);
    partner := FirstInBox(g, rc.0, rc.1);
  }

  /** The early-exit loop of `getPartner` around cell `(row, column)`. */
  method FirstInBox(g: Grid, row: int, column: int) returns (partner: Option<Entity>)
    requires g.Shaped()
    ensures var box := ScanBox(g, row - 3, row + 3, column - 3, column + 3);
      partner == if |box| > 0 then Some(box[0]) else None
  {
    var i := -3;
    while i <= 3
      invariant -3 <= i <= 4
      invariant ScanBox(g, row - 3, row + i - 1, column - 3, column + 3) == []
    {
      var first := FirstInRow(g, row + i, column - 3, column + 3);
      BoxHead(g, row - 3, row + i, row + 3, column - 3, column + 3);
      if first.Some? {
        return first;
      }
      i := i + 1;
    }
    return None;
  }

  /** Once the rows before `r` are empty, the box starts with row `r`. */
  lemma BoxHead(g: Grid, r0: int, r: int, r1: int, c0: int, c1: int)
    requires g.Shaped() && r0 <= r <= r1 && ScanBox(g, r0, r - 1, c0, c1) == []
    ensures ScanBox(g, r0, r, c0, c1) == ScanRow(g, r, c0, c1)
    ensures |ScanRow(g, r, c0, c1)| > 0 ==>
      |ScanBox(g, r0, r1, c0, c1)| > 0 && ScanBox(g, r0, r1, c0, c1)[0] == ScanRow(g, r, c0, c1)[0]
  {
    assert ScanBox(g, r0, r, c0, c1) == [] + ScanRow(g, r, c0, c1);
    BoxPrefix(g, r0, r, r1, c0, c1);
  }

  /** The inner loop of `getPartner` over one row: the first entity of the
      first non-empty qualifying cell. */
  method FirstInRow(g: Grid, r: int, c0: int, c1: int) returns (first: Option<Entity>)
    requires g.Shaped()
    ensures var cells := ScanRow(g, r, c0, c1);
      first == if |cells| > 0 then Some(cells[0]) else None
  {
    var c := c0;
    while c <= c1
      invariant c0 <= c <= c1 + 1 || (c == c0 && c1 < c0)
      invariant ScanRow(g, r, c0, c - 1) == []
    {
      var cell := CellAt(g, r, c);
      if |cell| > 0 {
        RowPrefix(g, r, c0, c, c1);
        return Some(cell[0]);
      }
      c := c + 1;
    }
    return None;
  }

  /** A 100 x 100 window with 15-pixel cells has 6 x 6 cells; (7, 7) is in
      cell (0, 0) and (95, 95), whose unclipped index would be 6, is in cell
      (5, 5). */
  lemma WorkedExample()
    ensures var g := New(Window(100, 100), 15);
      && g.rows == 6 && g.columns == 6
      && CellCoords(g, Vec(7.0, 7.0)) == (0, 0)
      && CellCoords(g, Vec(95.0, 95.0)) == (5, 5)
  {
    var g := New(Window(100, 100), 15);
    assert g.rows == 6 && g.columns == 6;
  }
}

=== FILE: predator.dfy ===
/** The predator (PredatorBoid.py): it picks the nearest visible fish, eats
    it when within reach, and otherwise steers toward it, bounces off the
    window edges, keeps its speed within a band and moves, re-filing itself
    in the grid. Square roots do not exist over the reals Dafny offers, so
    the two lengths the source computes with `math.dist` and `np.sqrt` are
    inputs together with the equation that pins each down. */
module PredatorBoid {
  import opened Common
  import opened BoidGrid
  import opened FishBoid

  /** A fish closer than this is eaten. */
  const Reach: real := 20.0
  /** Radius, in cells, of the box the predator looks into. */
  const VisionRange: nat := 12
  /** Distance `get_closest_fish` reports when it sees no fish. */
  const NoTarget: real := 10000.0
  const VMax: real := 1.82
  const VMin: real := 1.2
  /** Within this distance of an edge the velocity component is reflected. */
  const Margin: real := 10.0
  /** The small push added to every reflected component. */
  const EdgeNudge: real := 0.01
  /** The predator's position is clipped this far inside the window. */
  const PredatorPadding: real := 9.0
  /** Weight of the unit pull toward the target. */
  const ChasePull: real := 0.5

  datatype Predator = Predator(pos: Vec, vel: Vec, target: Option<nat>, window: Window)

  /** The predator's bounds, with the window tuple swapped as in its
      constructor. */
  function PredatorExtent(me: Predator): Vec
  {
    Vec(me.window.w1 as real, me.window.w0 as real)
  }

  /** The constructor: a fixed start at (100, 100) moving diagonally, no
      target, filed once more in the cell of its start and nowhere else; on
      a grid without a predator it is then filed in exactly one cell. */
  function NewPredator(window: Window, g: Grid): (r: (Predator, Grid))
    requires g.Usable()
    ensures r.0.pos == Vec(100.0, 100.0) && r.0.vel == Vec(1.6, 1.6) && r.0.target.None?
    ensures r.1.Usable() && r.1.SameShape(g)
    ensures var rc := CellCoords(g, r.0.pos);
      Occurs(r.1, PredatorRef, rc.0, rc.1) == Occurs(g, PredatorRef, rc.0, rc.1) + 1
    ensures r.0.window == window
    ensures forall x: Entity, row, col :: x.FishRef? && g.InBounds(row, col) ==> Occurs(r.1, x, row, col) == Occurs(g, x, row, col)
    ensures forall row, col :: g.InBounds(row, col) && (row, col) != CellCoords(g, r.0.pos) ==> r.1.cells[row][col] == g.cells[row][col]
    ensures Unfiled(g, PredatorRef) ==> FiledOnceAt(r.1, PredatorRef, r.0.pos)
  {
    var me := Predator(Vec(100.0, 100.0), Vec(1.6, 1.6), None, window);
    AddUnfiled(g, PredatorRef, me.pos);
    (me, AddFish(g, PredatorRef, me.pos))
  }

  // ---------------------------------------------------------------------
  // Target selection
  // ---------------------------------------------------------------------

  /** Squared distance the scan compares against at a given point of the
      list: the best fish so far, or the no-target distance squared. */
  function BestSq(nbs: seq<Entity>, arena: seq<Fish>, p: Vec, best: Option<nat>): real
    requires best.Some? ==> best.value < |nbs| && nbs[best.value].FishRef? && nbs[best.value].id < |arena|
  {
    if best.None? then NoTarget * NoTarget else DistSq(p, arena[nbs[best.value].id].pos)
  }

  /** The loop of `get_closest_fish`, as the index in the neighbour list of
      the fish it settles on. Only a strictly smaller distance replaces the
      current best, so among equally near fish the first listed wins, and a
      fish at the no-target distance or beyond is never chosen. The
      predator's own entry is skipped. */
  function ClosestIn(nbs: seq<Entity>, arena: seq<Fish>, p: Vec): (best: Option<nat>)
    requires forall e :: e in nbs && e.FishRef? ==> e.id < |arena|
    ensures best.Some? ==> best.value < |nbs| && nbs[best.value].FishRef? && nbs[best.value].id < |arena|
    ensures best.Some? ==> DistSq(p, arena[nbs[best.value].id].pos) < NoTarget * NoTarget
    ensures forall i :: 0 <= i < |nbs| && nbs[i].FishRef? ==>
      BestSq(nbs, arena, p, best) <= DistSq(p, arena[nbs[i].id].pos)
    ensures best.Some? ==> forall i :: 0 <= i < best.value && nbs[i].FishRef? ==>
      BestSq(nbs, arena, p, best) < DistSq(p, arena[nbs[i].id].pos)
    decreases |nbs|
  {
    if |nbs| == 0 then None
    else
      var front := nbs[..|nbs| - 1];
      assert forall x :: x in front ==> x in nbs;
      var r := ClosestIn(front, arena, p);
      var last := nbs[|nbs| - 1];
      if last.FishRef? && DistSq(p, arena[last.id].pos) < BestSq(front, arena, p, r) then Some(|nbs| - 1)
      else r
  }

  /** The fish `get_closest_fish` returns, by arena index. */
  function Closest(me: Predator, g: Grid, arena: seq<Fish>): (t: Option<nat>)
    requires g.Usable() && RefsBelow(g, |arena|)
    ensures forall e :: e in Neighbours(g, me.pos, VisionRange) && e.FishRef? ==> e.id < |arena|
    ensures t.Some? ==> t.value < |arena| && FishRef(t.value) in Neighbours(g, me.pos, VisionRange)
    ensures t.Some? ==> DistSq(me.pos, arena[t.value].pos) < NoTarget * NoTarget
    ensures ClosestSq(me, g, arena) == if t.Some? then DistSq(me.pos, arena[t.value].pos) else NoTarget * NoTarget
    ensures forall e :: e in Neighbours(g, me.pos, VisionRange) && e.FishRef? ==>
      ClosestSq(me, g, arena) <= DistSq(me.pos, arena[e.id].pos)
    ensures t.None? ==> forall e :: e in Neighbours(g, me.pos, VisionRange) ==>
      (e == PredatorRef || NoTarget * NoTarget <= DistSq(me.pos, arena[e.id].pos))
  {
    var nbs := Neighbours(g, me.pos, VisionRange);
    NeighboursBelow(g, me.pos, VisionRange, |arena|);
    var k := ClosestIn(nbs, arena, me.pos);
    ClosestBeatsMembers(nbs, arena, me.pos);
    if k.Some? then Some(nbs[k.value].id) else None
  }

  /** The scan's bound holds for every listed fish, not only by position. */
  lemma ClosestBeatsMembers(nbs: seq<Entity>, arena: seq<Fish>, p: Vec)
    requires forall e :: e in nbs && e.FishRef? ==> e.id < |arena|
    ensures forall e :: e in nbs && e.FishRef? ==>
      BestSq(nbs, arena, p, ClosestIn(nbs, arena, p)) <= DistSq(p, arena[e.id].pos)
  {
    forall e | e in nbs && e.FishRef?
      ensures BestSq(nbs, arena, p, ClosestIn(nbs, arena, p)) <= DistSq(p, arena[e.id].pos)
    {
      var i :| 0 <= i < |nbs| && nbs[i] == e;
    }
  }

  /** The squared distance `get_closest_fish` reports. */
  function ClosestSq(me: Predator, g: Grid, arena: seq<Fish>): real
    requires g.Usable() && RefsBelow(g, |arena|)
  {
    NeighboursBelow(g, me.pos, VisionRange, |arena|);
    var nbs := Neighbours(g, me.pos, VisionRange);
    BestSq(nbs, arena, me.pos, ClosestIn(nbs, arena, me.pos))
  }

  // ---------------------------------------------------------------------
  // Steering
  // ---------------------------------------------------------------------

  /** The pull of `chase_target`: half the unit vector toward the target
      (the raw difference if the target sits exactly on the predator).
      `dist` is the length `math.dist` computes. */
  function ChaseVelocity(me: Predator, t: Vec, dist: real): (v: Vec)
  {
    var d := Vec(t.x - me.pos.x, t.y - me.pos.y);
    var dir := if dist > 0.0 then Vec(d.x / dist, d.y / dist) else d;
    Vec(me.vel.x + ChasePull * dir.x, me.vel.y + ChasePull * dir.y)
  }

  /** The pull has length exactly one half and points straight at the
      target. */
  lemma ChasePullsTowardTarget(me: Predator, t: Vec, dist: real)
    requires 0.0 < dist && dist * dist == DistSq(t, me.pos)
    ensures var v := ChaseVelocity(me, t, dist);
      var pull := Vec(v.x - me.vel.x, v.y - me.vel.y);
      && NormSq(pull) == ChasePull * ChasePull
      && pull.x * (t.y - me.pos.y) == pull.y * (t.x - me.pos.x)
      && pull.x * (t.x - me.pos.x) + pull.y * (t.y - me.pos.y) > 0.0
  {
    var d := Vec(t.x - me.pos.x, t.y - me.pos.y);
    var k := ChasePull / dist;
    var v := ChaseVelocity(me, t, dist);
    var pull := Vec(v.x - me.vel.x, v.y - me.vel.y);
    assert pull.x == k * d.x && pull.y == k * d.y;
    assert NormSq(pull) == k * k * NormSq(d);
    assert NormSq(d) == dist * dist;
    assert k * k * (dist * dist) == ChasePull * ChasePull by {
      assert k * dist == ChasePull;
    }
    assert pull.x * d.x + pull.y * d.y == k * (dist * dist);
  }

  /** `avoid_edges`: a component whose coordinate lies within the margin of
      either edge (on either side of the window) is reflected and nudged. */
  function AvoidEdges(pos: Vec, v: Vec, extent: Vec): (r: Vec)
    ensures Margin <= pos.x <= extent.x - Margin ==> r.x == v.x
    ensures Margin <= pos.y <= extent.y - Margin ==> r.y == v.y
    ensures (pos.x < Margin || extent.x - Margin < pos.x) ==> r.x + v.x == EdgeNudge
    ensures (pos.y < Margin || extent.y - Margin < pos.y) ==> r.y + v.y == EdgeNudge
  {
    Vec(if pos.x < Margin || pos.x > extent.x - Margin then -v.x + EdgeNudge else v.x,
        if pos.y < Margin || pos.y > extent.y - Margin then -v.y + EdgeNudge else v.y)
  }

  /** Reflection is its own inverse: applying it twice at the same place
      gives the original velocity back. */
  lemma AvoidEdgesInvolution(pos: Vec, v: Vec, extent: Vec)
    ensures AvoidEdges(pos, AvoidEdges(pos, v, extent), extent) == v
  {
  }

  /** Near the low edge a predator heading out is turned back in; near the
      high edge likewise, once it moves out faster than the nudge. */
  lemma AvoidEdgesTurnsBack(pos: Vec, v: Vec, extent: Vec)
    ensures pos.x < Margin && v.x < 0.0 ==> AvoidEdges(pos, v, extent).x > 0.0
    ensures pos.y < Margin && v.y < 0.0 ==> AvoidEdges(pos, v, extent).y > 0.0
    ensures extent.x - Margin < pos.x && v.x > EdgeNudge ==> AvoidEdges(pos, v, extent).x < 0.0
    ensures extent.y - Margin < pos.y && v.y > EdgeNudge ==> AvoidEdges(pos, v, extent).y < 0.0
  {
  }

  function Scale(v: Vec, k: real): Vec
  {
    Vec(v.x * k, v.y * k)
  }

  lemma ScaleNorm(v: Vec, k: real)
    ensures NormSq(Scale(v, k)) == k * k * NormSq(v)
  {
  }

  /** `speed_limit`, with `n` the length `np.sqrt` returns: a speed above
      the maximum is cut to the maximum, a nonzero speed below the minimum is
      raised to the minimum, the direction is kept and a standing predator
      stays standing. */
  function SpeedLimit(v: Vec, n: real): (r: Vec)
    requires 0.0 <= n && n * n == NormSq(v)
    ensures n > VMax ==> NormSq(r) == VMax * VMax
    ensures 0.0 < n < VMin ==> NormSq(r) == VMin * VMin
    ensures (n == 0.0 || VMin <= n <= VMax) ==> r == v
    ensures r.x * v.y == r.y * v.x && r.x * v.x + r.y * v.y >= 0.0
  {
    if n > VMax then
      ScaleNorm(v, VMax / n);
      assert (VMax / n) * (VMax / n) * (n * n) == VMax * VMax by {
        assert (VMax / n) * n == VMax;
      }
      Scale(v, VMax / n)
    else if n < VMin && n != 0.0 then
      ScaleNorm(v, VMin / n);
      assert (VMin / n) * (VMin / n) * (n * n) == VMin * VMin by {
        assert (VMin / n) * n == VMin;
      }
      Scale(v, VMin / n)
    else v
  }

  /** Whatever the input, a moving predator leaves `speed_limit` with a
      speed inside `[VMin, VMax]` (compared squared); a standing one stays
      put. */
  lemma SpeedLimitBand(v: Vec, n: real)
    requires 0.0 <= n && n * n == NormSq(v)
    ensures n != 0.0 ==> VMin * VMin <= NormSq(SpeedLimit(v, n)) <= VMax * VMax
    ensures n == 0.0 ==> SpeedLimit(v, n) == v
  {
    if VMin <= n <= VMax {
      SquareLeq(VMin, n);
      SquareLeq(n, VMax);
    }
  }

  /** Limiting an already limited velocity changes nothing. */
  lemma SpeedLimitIdempotent(v: Vec, n: real, m: real)
    requires 0.0 <= n && n * n == NormSq(v)
    requires 0.0 <= m && m * m == NormSq(SpeedLimit(v, n))
    ensures SpeedLimit(SpeedLimit(v, n), m) == SpeedLimit(v, n)
  {
    var r := SpeedLimit(v, n);
    if n > VMax {
      SquareRootUnique(m, VMax);
    } else if 0.0 < n < VMin {
      SquareRootUnique(m, VMin);
    } else {
      SquareRootUnique(m, n);
    }
  }

  lemma SquareRootUnique(a: real, b: real)
    requires 0.0 <= a && 0.0 <= b && a * a == b * b
    ensures a == b
  {
    if a < b {
      SquareLess(a, b);
    } else if b < a {
      SquareLess(b, a);
    }
  }

  /** Squaring is strictly increasing on the non-negative reals. */
  lemma SquareLess(a: real, b: real)
    requires 0.0 <= a < b
    ensures a * a < b * b
  {
    assert b * b - a * a == (b - a) * (b + a);
    ProductPositive(b - a, b + a);
  }

  lemma ProductPositive(x: real, y: real)
    requires 0.0 < x && 0.0 < y
    ensures 0.0 < x * y
  {
  }

  lemma SquareLeq(a: real, b: real)
    requires 0.0 <= a <= b
    ensures a * a <= b * b
  {
    if a < b {
      SquareLess(a, b);
    }
  }

  // ---------------------------------------------------------------------
  // The update
  // ---------------------------------------------------------------------

  /** The velocity after chasing and edge avoidance, just before the speed
      limit, on the branch where nothing is eaten. */
  function PreLimit(me: Predator, g: Grid, arena: seq<Fish>, dist: real): Vec
    requires g.Usable() && RefsBelow(g, |arena|)
  {
    var t := Closest(me, g, arena);
    var v := if t.Some? then ChaseVelocity(me, arena[t.value].pos, dist) else me.vel;
    AvoidEdges(me.pos, v, PredatorExtent(me))
  }

  /** The outcome of a predator tick: its new state, the grid, and the fish
      it ate, if any. */
  datatype Hunt = Hunt(pred: Predator, grid: Grid, eaten: Option<nat>)

  /** `update`. `dist` is the distance `get_closest_fish` reports and
      `speed` the length `speed_limit` computes. A fish within reach is
      wiped from every cell and returned, and the predator neither moves nor
      steers that tick. Otherwise the predator records its target, steers,
      moves, is clipped inside the padded window and re-filed. */
  function Update(me: Predator, g: Grid, arena: seq<Fish>, dist: real, speed: real): (h: Hunt)
    requires g.Usable() && RefsBelow(g, |arena|)
    requires 0.0 <= dist && dist * dist == ClosestSq(me, g, arena)
    requires 0.0 <= speed && speed * speed == NormSq(PreLimit(me, g, arena, dist))
    ensures h.eaten.Some? ==> h.eaten == Closest(me, g, arena) && h.eaten.value < |arena|
    ensures h.eaten.Some? ==>
      h.pred == me.(target := None) && h.grid == WipeFish(g, FishRef(h.eaten.value))
    ensures h.eaten.None? ==>
      var v := SpeedLimit(PreLimit(me, g, arena, dist), speed);
      && h.pred.target == Closest(me, g, arena)
      && h.pred.vel == v
      && h.pred.pos == ClampInto(Vec(me.pos.x + v.x, me.pos.y + v.y), PredatorExtent(me), PredatorPadding)
      && h.pred.window == me.window
      && h.grid == MoveFish(g, PredatorRef, me.pos, h.pred.pos)
  {
    var t := Closest(me, g, arena);
    if t.Some? && dist < Reach then
      Hunt(me.(target := None), WipeFish(g, FishRef(t.value)), t)
    else
      var v := SpeedLimit(PreLimit(me, g, arena, dist), speed);
      var pos := ClampInto(Vec(me.pos.x + v.x, me.pos.y + v.y), PredatorExtent(me), PredatorPadding);
      Hunt(Predator(pos, v, t, me.window), MoveFish(g, PredatorRef, me.pos, pos), None)
  }

  /** Eating happens exactly when the nearest visible fish is within reach
      (compared squared), and the eaten fish was visible. */
  lemma EatsIffWithinReach(me: Predator, g: Grid, arena: seq<Fish>, dist: real, speed: real)
    requires g.Usable() && RefsBelow(g, |arena|)
    requires 0.0 <= dist && dist * dist == ClosestSq(me, g, arena)
    requires 0.0 <= speed && speed * speed == NormSq(PreLimit(me, g, arena, dist))
    ensures var t := Closest(me, g, arena);
      Update(me, g, arena, dist, speed).eaten.Some? <==>
        t.Some? && DistSq(me.pos, arena[t.value].pos) < Reach * Reach
    ensures var e := Update(me, g, arena, dist, speed).eaten;
      e.Some? ==> FishRef(e.value) in Neighbours(g, me.pos, VisionRange)
  {
    var t := Closest(me, g, arena);
    if t.Some? {
      ReachBySquares(dist, DistSq(me.pos, arena[t.value].pos));
    }
  }

  /** Comparing a length with the reach is comparing its square with the
      reach squared. */
  lemma ReachBySquares(dist: real, dsq: real)
    requires 0.0 <= dist && dist * dist == dsq
    ensures dist < Reach <==> dsq < Reach * Reach
  {
    if dist < Reach {
      SquareLess(dist, Reach);
    } else {
      SquareLeq(Reach, dist);
    }
  }

  /** An eaten fish that was filed at most once per cell is gone from the
      grid, and no other entity's filing changes. */
  lemma EatenLeavesGrid(me: Predator, g: Grid, arena: seq<Fish>, dist: real, speed: real)
    requires g.Usable() && RefsBelow(g, |arena|)
    requires 0.0 <= dist && dist * dist == ClosestSq(me, g, arena)
    requires 0.0 <= speed && speed * speed == NormSq(PreLimit(me, g, arena, dist))
    requires var e := Update(me, g, arena, dist, speed).eaten;
      e.Some? ==> forall r, c :: g.InBounds(r, c) ==> Occurs(g, FishRef(e.value), r, c) <= 1
    ensures var h := Update(me, g, arena, dist, speed);
      h.eaten.Some? ==>
        && (forall r, c :: g.InBounds(r, c) ==> FishRef(h.eaten.value) !in h.grid.cells[r][c])
        && (forall x, r, c :: x != FishRef(h.eaten.value) && g.InBounds(r, c) ==> Occurs(h.grid, x, r, c) == Occurs(g, x, r, c))
  {
    var h := Update(me, g, arena, dist, speed);
    if h.eaten.Some? {
      var e := FishRef(h.eaten.value);
      forall x, r, c | x != e && g.InBounds(r, c)
        ensures Occurs(h.grid, x, r, c) == Occurs(g, x, r, c)
      {
        assert multiset(h.grid.cells[r][c]) == multiset(g.cells[r][c]) - multiset{e};
      }
    }
  }

  /** A predator that moves ends inside the padded window (given a window at
      least twice the padding in each direction), filed exactly once under
      its new position if it was filed exactly once under its old one, with
      every fish's filing unchanged. */
  lemma MoveKeepsPredatorFiled(me: Predator, g: Grid, arena: seq<Fish>, dist: real, speed: real)
    requires g.Usable() && RefsBelow(g, |arena|)
    requires 0.0 <= dist && dist * dist == ClosestSq(me, g, arena)
    requires 0.0 <= speed && speed * speed == NormSq(PreLimit(me, g, arena, dist))
    requires FiledOnceAt(g, PredatorRef, me.pos)
    ensures var h := Update(me, g, arena, dist, speed);
      h.eaten.None? ==>
        && FiledOnceAt(h.grid, PredatorRef, h.pred.pos)
        && (forall x: Entity, r, c :: x.FishRef? && g.InBounds(r, c) ==> Occurs(h.grid, x, r, c) == Occurs(g, x, r, c))
  {
  }

  /** A moving predator stays inside the window, padded by nine pixels. */
  lemma PredatorStaysInside(me: Predator, g: Grid, arena: seq<Fish>, dist: real, speed: real)
    requires g.Usable() && RefsBelow(g, |arena|)
    requires 0.0 <= dist && dist * dist == ClosestSq(me, g, arena)
    requires 0.0 <= speed && speed * speed == NormSq(PreLimit(me, g, arena, dist))
    requires PredatorExtent(me).x >= 2.0 * PredatorPadding && PredatorExtent(me).y >= 2.0 * PredatorPadding
    ensures var h := Update(me, g, arena, dist, speed);
      h.eaten.None? ==>
        && PredatorPadding <= h.pred.pos.x <= PredatorExtent(me).x - PredatorPadding
        && PredatorPadding <= h.pred.pos.y <= PredatorExtent(me).y - PredatorPadding
  {
  }

  /** The grid after a predator tick still names only fish of the arena. */
  lemma UpdateKeepsArenaRefs(me: Predator, g: Grid, arena: seq<Fish>, dist: real, speed: real)
    requires g.Usable() && RefsBelow(g, |arena|)
    requires 0.0 <= dist && dist * dist == ClosestSq(me, g, arena)
    requires 0.0 <= speed && speed * speed == NormSq(PreLimit(me, g, arena, dist))
    ensures RefsBelow(Update(me, g, arena, dist, speed).grid, |arena|)
  {
    var h := Update(me, g, arena, dist, speed);
    if h.eaten.Some? {
      WipeKeepsRefs(g, FishRef(h.eaten.value), |arena|);
    } else {
      MoveKeepsRefs(g, PredatorRef, me.pos, h.pred.pos, |arena|);
    }
  }
}

=== FILE: seqs.dfy ===
/** Python's `list.remove(x)`: delete the first element equal to `x`. The
    grid cells and the population list both use it. */
module Seqs {

  /** Index of the first occurrence of `e` in `s`. */
  function FirstIndex<T(==)>(s: seq<T>, e: T): (k: nat)
    requires e in s
    ensures k < |s| && s[k] == e
    ensures e !in s[..k]
  {
    if s[0] == e then 0
    else
      assert s == [s[0]] + s[1..];
      var k := 1 + FirstIndex(s[1..], e);
      assert s[..k] == [s[0]] + s[1..][..k - 1];
      k
  }

  /** `s` with its first `e` removed; `s` itself when `e` does not occur.
      Callers in the source guard with `if x in s` or let the absent case pass. */
  function RemoveFirst<T(==)>(s: seq<T>, e: T): (r: seq<T>)
    ensures e !in s ==> r == s
    ensures e in s ==> r == s[..FirstIndex(s, e)] + s[FirstIndex(s, e) + 1..]
    ensures multiset(r) == multiset(s) - multiset{e}
  {
    if e !in s then s
    else
      var k := FirstIndex(s, e);
      assert s == s[..k] + [e] + s[k + 1..];
      s[..k] + s[k + 1..]
  }

  /** No value occurs twice. */
  predicate Distinct<T(==)>(s: seq<T>)
  {
    forall i, j :: 0 <= i < j < |s| ==> s[i] != s[j]
  }

  /** Removing the value at a known position of a duplicate-free sequence
      removes exactly that position and keeps the sequence duplicate-free. */
  lemma RemoveFirstDistinct<T>(s: seq<T>, k: nat)
    requires Distinct(s) && k < |s|
    ensures RemoveFirst(s, s[k]) == s[..k] + s[k + 1..]
    ensures Distinct(RemoveFirst(s, s[k]))
    ensures s[k] !in RemoveFirst(s, s[k])
  {
    var r := RemoveFirst(s, s[k]);
    assert FirstIndex(s, s[k]) == k;
    forall i, j | 0 <= i < j < |r|
      ensures r[i] != r[j]
    {
      var i' := if i < k then i else i + 1;
      var j' := if j < k then j else j + 1;
      assert r[i] == s[i'] && r[j] == s[j'];
    }
    forall i | 0 <= i < |r|
      ensures r[i] != s[k]
    {
      var i' := if i < k then i else i + 1;
      assert r[i] == s[i'];
    }
  }

  /** Slicing an append inside its first part. */
  lemma SliceAppend<T>(a: seq<T>, b: seq<T>, k: nat)
    requires k <= |a|
    ensures (a + b)[..k] == a[..k]
    ensures (a + b)[k..] == a[k..] + b
  {
  }

  /** Removing a value that was just appended to a sequence not holding it
      gives the sequence back. */
  lemma RemoveAppended<T>(s: seq<T>, e: T)
    requires e !in s
    ensures RemoveFirst(s + [e], e) == s
  {
    assert forall j | 0 <= j < |s| :: (s + [e])[j] == s[j];
    var k := FirstIndex(s + [e], e);
    assert k == |s|;
    assert (s + [e])[..k] == s;
  }
}

=== FILE: simulate.dfy ===
/** The bookkeeping of one tick of `simulate` (main.py): the clock, the
    elder and juvenile marks, the food points, the pass over the fish list
    (with starvation), the predator's meal and the clearing of the juvenile
    marks. Rendering, events and statistics display are not modelled. */
module Simulate {
  import opened Common
  import opened Seqs
  import opened BoidGrid
  import opened FishBoid
  import opened Food
  import opened PredatorBoid

  /** Ticks per generation, as used by the generation statistic. */
  const TicksPerGeneration: int := 2700
  /** Ticks per displayed second. */
  const TicksPerSecond: nat := 60
  /** Food each point holds when full, and its radius in cells. */
  const FoodCapacity: int := 40
  const FoodSize: nat := 2

  /** One death statistic: the generation the fish belonged to and its age
      in seconds. */
  datatype Record = Record(generation: int, ageSeconds: int)

  /** Everything a tick reads and writes. `arena` holds every fish ever
      created, indexed by creation order; `fishes` is the population list,
      as arena indices, in the source's list order. */
  datatype World = World(
    time: int,
    arena: seq<Fish>,
    fishes: seq<nat>,
    grid: Grid,
    foods: seq<FoodPoint>,
    predator: Predator,
    eaten: nat,
    starved: nat,
    records: seq<Record>)

  /** The structural invariant: a usable grid naming only arena fish, six
      genes per fish, each inside its clip range, a duplicate-free
      population list of arena fish, and the grid filing every creature
      where it is (`Filed`). */
  ghost predicate WorldOk(w: World)
  {
    && w.grid.Usable() && RefsBelow(w.grid, |w.arena|) && SixGenes(w.arena) && GenesInRange(w.arena)
    && Distinct(w.fishes) && (forall j :: 0 <= j < |w.fishes| ==> w.fishes[j] < |w.arena|)
    && Filed(w.grid, w.arena, w.fishes, w.predator.pos)
  }

  /** Where the grid files each creature. A fish of the arena is filed
      nowhere (one that has not changed cell since it was created, or a dead
      one) or exactly once, under its current position, and then it is on
      the population list. The predator is filed exactly once, under its
      position. */
  ghost predicate Filed(g: Grid, arena: seq<Fish>, fishes: seq<nat>, predator: Vec)
    requires g.Usable()
  {
    && (forall k :: 0 <= k < |arena| ==>
          Unfiled(g, FishRef(k)) || (k in fishes && FiledOnceAt(g, FishRef(k), arena[k].pos)))
    && FiledOnceAt(g, PredatorRef, predator)
  }

  /** A fish filed nowhere can leave the population list. */
  lemma DropKeepsFiled(g: Grid, arena: seq<Fish>, fishes: seq<nat>, predator: Vec, i: nat)
    requires g.Usable() && Filed(g, arena, fishes, predator) && i < |fishes|
    requires Unfiled(g, FishRef(fishes[i]))
    ensures Filed(g, arena, fishes[..i] + fishes[i + 1..], predator)
  {
    forall k | 0 <= k < |arena| && !Unfiled(g, FishRef(k))
      ensures k in fishes[..i] + fishes[i + 1..]
    {
      var j :| 0 <= j < |fishes| && fishes[j] == k;
      if j < i {
        assert fishes[..i][j] == k;
      } else {
        assert fishes[i + 1..][j - i - 1] == k;
      }
    }
  }

  /** Wiping a fish of the arena from the grid leaves it filed nowhere and
      every other creature filed as before. */
  lemma WipeKeepsFiled(g: Grid, arena: seq<Fish>, fishes: seq<nat>, predator: Vec, id: nat)
    requires g.Usable() && Filed(g, arena, fishes, predator) && id < |arena|
    ensures var g' := WipeFish(g, FishRef(id));
      Unfiled(g', FishRef(id)) && Filed(g', arena, fishes, predator)
  {
    var e := FishRef(id);
    assert forall r, c :: g.InBounds(r, c) ==> Occurs(g, e, r, c) <= 1;
    WipeClears(g, e);
    WipeFiling(g, e, PredatorRef);
    WipeKeepsOthers(g, arena, fishes, id);
  }

  lemma WipeKeepsOthers(g: Grid, arena: seq<Fish>, fishes: seq<nat>, id: nat)
    requires g.Usable()
    requires forall k :: 0 <= k < |arena| ==>
      Unfiled(g, FishRef(k)) || (k in fishes && FiledOnceAt(g, FishRef(k), arena[k].pos))
    ensures var g' := WipeFish(g, FishRef(id));
      forall k :: 0 <= k < |arena| && k != id ==>
        Unfiled(g', FishRef(k)) || (k in fishes && FiledOnceAt(g', FishRef(k), arena[k].pos))
  {
    forall k | 0 <= k < |arena| && k != id
      ensures Unfiled(WipeFish(g, FishRef(id)), FishRef(k))
        || (k in fishes && FiledOnceAt(WipeFish(g, FishRef(id)), FishRef(k), arena[k].pos))
    {
      WipeFiling(g, FishRef(id), FishRef(k));
    }
  }

  /** Conservation: every fish ever created is alive, eaten or starved. */
  predicate Accounted(w: World)
  {
    |w.fishes| + w.eaten + w.starved == |w.arena|
  }

  /** Between ticks nobody carries the juvenile mark. */
  predicate NoJuveniles(arena: seq<Fish>)
  {
    forall k :: 0 <= k < |arena| ==> !arena[k].isJuvenile
  }

  lemma RefsBelowGrows(g: Grid, n: nat, m: nat)
    requires g.Shaped() && RefsBelow(g, n) && n <= m
    ensures RefsBelow(g, m)
  {
  }

  // ---------------------------------------------------------------------
  // Set-up
  // ---------------------------------------------------------------------

  /** The population `[0, n)`. */
  function Range(n: nat): (ids: seq<nat>)
    ensures |ids| == n && forall j :: 0 <= j < n ==> ids[j] == j
  {
    seq(n, j requires 0 <= j < n => j)
  }

  /** The grid of the window, with the predator filed at its start and no
      fish filed: the constructor of a fish does not file it. */
  function StartGrid(window: Window, cellSize: nat): (r: (Predator, Grid))
    requires cellSize > 0 && window.w0 >= cellSize && window.w1 >= cellSize
    ensures r.1.Usable() && r.0.pos == Vec(100.0, 100.0) && r.0.target.None?
    ensures forall x: Entity, row, col :: x.FishRef? && r.1.InBounds(row, col) ==> x !in r.1.cells[row][col]
  {
    var g := BoidGrid.New(window, cellSize);
    assert g.Usable() by {
      assert g.rows * cellSize <= window.w0 < (g.rows + 1) * cellSize;
      assert g.columns * cellSize <= window.w1 < (g.columns + 1) * cellSize;
    }
    var p := NewPredator(window, g);
    assert forall x: Entity, row, col :: x.FishRef? && p.1.InBounds(row, col) ==> Occurs(p.1, x, row, col) == 0;
    p
  }

  /** The initial fish, one per draw, none marked. */
  function Population(window: Window, draws: seq<Draws>, evoAndLearn: bool, stochastic: bool, reproduceTime: int)
    : (arena: seq<Fish>)
    requires forall j :: 0 <= j < |draws| ==> ValidDraws(draws[j])
    ensures |arena| == |draws| && SixGenes(arena) && NoJuveniles(arena)
    ensures forall k :: 0 <= k < |arena| ==> !arena[k].isElder && InRange(arena[k].genes)
  {
    seq(|draws|, j requires 0 <= j < |draws| => NewFish(window, evoAndLearn, stochastic, reproduceTime, draws[j]))
  }

  /** The food points: each location swapped into `(x, y)` order, full,
      radius two. */
  function FoodPoints(foodLocations: seq<(real, real)>): (foods: seq<FoodPoint>)
    ensures |foods| == |foodLocations|
    ensures forall j :: 0 <= j < |foods| ==>
      Sound(foods[j]) && foods[j].active && foods[j].pos == Vec(foodLocations[j].1, foodLocations[j].0)
    ensures forall j :: 0 <= j < |foods| ==>
      && foods[j].capacity == foods[j].maxCapacity == FoodCapacity
      && foods[j].internalTime == 0 && foods[j].size == FoodSize
  {
    seq(|foodLocations|, j requires 0 <= j < |foodLocations| =>
      NewFood(Vec(foodLocations[j].1, foodLocations[j].0), FoodCapacity, FoodSize))
  }

  /** The set-up of `simulate`: the grid, the food points, the fish built
      from their draws, and the predator. At the start the grid holds the
      predator alone. */
  function NewWorld(window: Window, cellSize: nat, foodLocations: seq<(real, real)>, draws: seq<Draws>,
                    evoAndLearn: bool, stochastic: bool, reproduceTime: int): (w: World)
    requires cellSize > 0 && window.w0 >= cellSize && window.w1 >= cellSize
    requires forall j :: 0 <= j < |draws| ==> ValidDraws(draws[j])
    ensures WorldOk(w) && Accounted(w) && NoJuveniles(w.arena)
    ensures |w.arena| == |draws| && w.time == 0 && w.eaten == 0 && w.starved == 0 && w.records == []
    ensures forall k :: 0 <= k < |w.arena| ==> !w.arena[k].isElder && InRange(w.arena[k].genes)
    ensures w.foods == FoodPoints(foodLocations)
    ensures forall x: Entity, r, c :: x.FishRef? && w.grid.InBounds(r, c) ==> x !in w.grid.cells[r][c]
  {
    var p := StartGrid(window, cellSize);
    World(0, Population(window, draws, evoAndLearn, stochastic, reproduceTime), Range(|draws|), p.1,
          FoodPoints(foodLocations), p.0, 0, 0, [])
  }

  // ---------------------------------------------------------------------
  // Marks
  // ---------------------------------------------------------------------

  /** Mark every listed fish an elder. */
  function MarkElders(arena: seq<Fish>, ids: seq<nat>): (r: seq<Fish>)
    requires forall j :: 0 <= j < |ids| ==> ids[j] < |arena|
    ensures |r| == |arena|
    ensures forall k :: 0 <= k < |arena| ==> r[k] == if k in ids then arena[k].(isElder := true) else arena[k]
    decreases |ids|
  {
    if |ids| == 0 then arena
    else
      var k := ids[0];
      var r := MarkElders(arena[k := arena[k].(isElder := true)], ids[1..]);
      assert forall x :: x in ids <==> x == k || x in ids[1..];
      r
  }

  /** Set the juvenile mark of every listed fish to `b`. */
  function MarkJuveniles(arena: seq<Fish>, ids: seq<nat>, b: bool): (r: seq<Fish>)
    requires forall j :: 0 <= j < |ids| ==> ids[j] < |arena|
    ensures |r| == |arena|
    ensures forall k :: 0 <= k < |arena| ==> r[k] == if k in ids then arena[k].(isJuvenile := b) else arena[k]
    decreases |ids|
  {
    if |ids| == 0 then arena
    else
      var k := ids[0];
      var r := MarkJuveniles(arena[k := arena[k].(isJuvenile := b)], ids[1..], b);
      assert forall x :: x in ids <==> x == k || x in ids[1..];
      r
  }

  /** The elder slice: the first tenth of the list, rounded down (`len // 10`). */
  function Elders(fishes: seq<nat>): seq<nat>
  {
    fishes[..|fishes| / 10]
  }

  /** The juvenile slice: everything from `int(len * 0.8)` on, computed as
      `(4 * len) / 5`, which the float product (never below the exact one)
      agrees with. */
  function Juveniles(fishes: seq<nat>): seq<nat>
  {
    fishes[(4 * |fishes|) / 5..]
  }

  /** The elders are a prefix of the list whose length is the whole number
      of tenths of the list's length. */
  lemma EldersMeaning(fishes: seq<nat>)
    ensures Elders(fishes) <= fishes
    ensures |Elders(fishes)| * 10 <= |fishes| < (|Elders(fishes)| + 1) * 10
  {
  }

  /** The juveniles are a suffix of the list starting at the truncation of
      the exact product `len * 0.8`. */
  lemma JuvenilesMeaning(fishes: seq<nat>)
    ensures var ids := Juveniles(fishes);
      && |ids| <= |fishes| && ids == fishes[|fishes| - |ids|..]
      && (|fishes| - |ids|) as real <= |fishes| as real * 0.8 < (|fishes| - |ids| + 1) as real
  {
  }

  /** The slices take from opposite ends: they do not overlap, and together
      they cover at most the whole list. */
  lemma SlicesDisjoint(fishes: seq<nat>)
    requires Distinct(fishes)
    ensures |Elders(fishes)| + |Juveniles(fishes)| <= |fishes|
    ensures forall x :: x in Elders(fishes) ==> x !in Juveniles(fishes)
  {
    var n := |fishes|;
    assert n / 10 <= (4 * n) / 5;
    forall x | x in Elders(fishes)
      ensures x !in Juveniles(fishes)
    {
      var i :| 0 <= i < n / 10 && fishes[i] == x;
      assert forall j :: (4 * n) / 5 <= j < n ==> fishes[j] != fishes[i];
    }
  }

  // ---------------------------------------------------------------------
  // Food
  // ---------------------------------------------------------------------

  /** The food loop: every point detects fish in turn, each seeing the
      hunger the previous ones left. A fish is fed at most to full and only
      if it was hungry to begin with. */
  function FeedAll(foods: seq<FoodPoint>, g: Grid, arena: seq<Fish>): (r: (seq<FoodPoint>, seq<Fish>))
    requires g.Usable() && RefsBelow(g, |arena|)
    ensures |r.0| == |foods| && FedFrom(arena, r.1)
    ensures AllSound(foods) ==> AllSound(r.0)
    ensures forall j :: 0 <= j < |foods| ==> r.0[j].pos == foods[j].pos
    decreases |foods|
  {
    if |foods| == 0 then ([], arena)
    else
      var first := DetectFish(foods[0], g, arena);
      assert FedFrom(arena, first.arena);
      var rest := FeedAll(foods[1..], g, first.arena);
      FedFromTrans(arena, first.arena, rest.1);
      ConsPoints(foods, first.point, rest.0);
      ([first.point] + rest.0, rest.1)
  }

  /** Every point is sound. */
  predicate AllSound(foods: seq<FoodPoint>)
  {
    forall j :: 0 <= j < |foods| ==> Sound(foods[j])
  }

  /** Putting a point processed from the first one in front of the points
      processed from the rest. */
  lemma ConsPoints(foods: seq<FoodPoint>, p: FoodPoint, rest: seq<FoodPoint>)
    requires |foods| > 0 && |rest| == |foods| - 1
    ensures var points := [p] + rest;
      && (p.pos == foods[0].pos && (forall j :: 0 <= j < |rest| ==> rest[j].pos == foods[1..][j].pos)
          ==> forall j :: 0 <= j < |foods| ==> points[j].pos == foods[j].pos)
      && (AllSound(foods) ==> Sound(foods[0]) && AllSound(foods[1..]))
      && (Sound(p) && AllSound(rest) ==> AllSound(points))
  {
    var points := [p] + rest;
    assert forall j :: 1 <= j < |foods| ==> points[j] == rest[j - 1] && foods[j] == foods[1..][j - 1];
  }

  /** Each fish of `arena'` is its counterpart in `arena`, or that fish,
      hungry before, now at maximum hunger. */
  predicate FedFrom(arena: seq<Fish>, arena': seq<Fish>)
  {
    && |arena'| == |arena|
    && forall k :: 0 <= k < |arena| ==>
      arena'[k] == arena[k] || (Hungry(arena[k]) && arena'[k] == arena[k].(hunger := MaxHunger))
  }

  /** Two feedings in a row feed each fish at most once. */
  lemma FedFromTrans(a: seq<Fish>, b: seq<Fish>, c: seq<Fish>)
    requires FedFrom(a, b) && FedFrom(b, c)
    ensures FedFrom(a, c)
  {
    forall k | 0 <= k < |a| {
      FedTwice(a[k], b[k], c[k]);
    }
  }

  /** Two feedings in a row feed at most once, and only a hungry fish. */
  lemma FedTwice(a: Fish, b: Fish, c: Fish)
    requires b == a || (Hungry(a) && b == a.(hunger := MaxHunger))
    requires c == b || (Hungry(b) && c == b.(hunger := MaxHunger))
    ensures c == a || (Hungry(a) && c == a.(hunger := MaxHunger))
  {
  }

  // ---------------------------------------------------------------------
  // The pass over the fish list
  // ---------------------------------------------------------------------

  /** The generation statistic: the 2700-tick epoch in which the fish was
      born. The meal statistic computes it; the starvation statistic is
      meant to (see `StarvedGenerationAsWritten`). */
  function Generation(time: int, age: int): int
  {
    (time - age) / TicksPerGeneration
  }

  /** The generation is the epoch of the birth tick `time - age`. */
  lemma GenerationIsBirthEpoch(time: int, age: int)
    ensures Generation(time, age) * TicksPerGeneration <= time - age < (Generation(time, age) + 1) * TicksPerGeneration
  {
  }

  /** The starvation statistic exactly as main.py writes it, subtracting
      the age in seconds from the clock in ticks. */
  function StarvedGenerationAsWritten(time: int, age: int): int
  {
    (time - age / TicksPerSecond) / TicksPerGeneration
  }

  /** A fish born at tick 600 that starves at tick 6000 belongs to epoch 0,
      but the starvation formula as written reports generation 2, while the
      meal formula reports 0. */
  lemma StarvedGenerationMismatch()
    ensures StarvedGenerationAsWritten(6000, 5400) == 2
    ensures Generation(6000, 5400) == 0
    ensures !(StarvedGenerationAsWritten(6000, 5400) * TicksPerGeneration <= 6000 - 5400)
  {
  }

  /** What one fish's update hands back, named. */
  function FishStep(w: World, i: nat, inp: Inputs): FishBoid.Step
    requires WorldOk(w) && i < |w.fishes| && ValidInputs(inp)
  {
    FishBoid.Update(w.fishes[i], w.arena, w.grid, inp)
  }

  /** Whether the fish at list position `i` starves in its update. */
  predicate Starves(w: World, i: nat, inp: Inputs)
    requires WorldOk(w) && i < |w.fishes| && ValidInputs(inp)
  {
    FishStep(w, i, inp).fish.hunger <= 0
  }

  /** What the list bookkeeping needs from the step of the fish at list
      position `i`: the grid with that fish re-filed from its old position
      to its new one, naming only arena fish; an in-range fish whose marks
      are unchanged; and an unmarked in-range child. */
  ghost predicate StepFits(w: World, i: nat, s: FishBoid.Step)
    requires i < |w.fishes| && w.fishes[i] < |w.arena| && w.grid.Usable()
  {
    && s.grid == UpdateFish(w.grid, FishRef(w.fishes[i]), s.fish.pos, w.arena[w.fishes[i]].pos)
    && s.grid.Usable() && RefsBelow(s.grid, |w.arena|) && |s.fish.genes| == 6 && InRange(s.fish.genes)
    && s.fish.isElder == w.arena[w.fishes[i]].isElder && s.fish.isJuvenile == w.arena[w.fishes[i]].isJuvenile
    && (s.baby.Some? ==> InRange(s.baby.value.genes) && !s.baby.value.isElder && !s.baby.value.isJuvenile)
  }

  lemma FishStepFits(w: World, i: nat, inp: Inputs)
    requires WorldOk(w) && i < |w.fishes| && ValidInputs(inp)
    ensures StepFits(w, i, FishStep(w, i, inp))
  {
    FishBoid.UpdateKeepsArenaRefs(w.fishes[i], w.arena, w.grid, inp);
  }

  /** Re-filing one listed fish from its old position to the new position
      of its updated state keeps the filing: filed nowhere it stays nowhere
      or is filed once under the new position; filed once under the old
      position it is filed once under the new one; everybody else stays as
      filed. */
  lemma RefileKeepsFiled(g: Grid, arena: seq<Fish>, fishes: seq<nat>, predator: Vec, id: nat, f: Fish)
    requires g.Usable() && Filed(g, arena, fishes, predator) && id < |arena| && id in fishes
    ensures Filed(UpdateFish(g, FishRef(id), f.pos, arena[id].pos), arena[id := f], fishes, predator)
  {
    var g' := UpdateFish(g, FishRef(id), f.pos, arena[id].pos);
    var arena' := arena[id := f];
    if Unfiled(g, FishRef(id)) {
      UnfiledRelocate(g, FishRef(id), f.pos, arena[id].pos);
    }
    forall k | 0 <= k < |arena| && k != id
      ensures Unfiled(g', FishRef(k)) || (k in fishes && FiledOnceAt(g', FishRef(k), arena'[k].pos))
    {
      SameCountsSameFiling(g, g', FishRef(k));
    }
    SameCountsSameFiling(g, g', PredatorRef);
  }

  /** A newcomer that the grid does not name, appended to the arena and
      the list, is filed nowhere. */
  lemma NewcomerKeepsFiled(g: Grid, arena: seq<Fish>, fishes: seq<nat>, predator: Vec, baby: Fish)
    requires g.Usable() && Filed(g, arena, fishes, predator) && RefsBelow(g, |arena|)
    ensures Filed(g, arena + [baby], fishes + [|arena|], predator)
  {
    assert Unfiled(g, FishRef(|arena|)) by {
      forall r, c | g.InBounds(r, c)
        ensures Occurs(g, FishRef(|arena|), r, c) == 0
      {
        assert FishRef(|arena|) !in g.cells[r][c];
      }
    }
    forall k | 0 <= k < |arena| && k in fishes
      ensures k in fishes + [|arena|]
    {
    }
  }

  /** Store the updated fish and its grid, and append its child (to the
      arena and the list, not the grid). */
  function Adopt(w: World, i: nat, s: FishBoid.Step): (w': World)
    requires WorldOk(w) && i < |w.fishes| && StepFits(w, i, s)
    ensures WorldOk(w')
    ensures Accounted(w) ==> Accounted(w')
    ensures w'.time == w.time && w'.eaten == w.eaten && w'.starved == w.starved && w'.records == w.records
    ensures w'.foods == w.foods && w'.predator == w.predator && w'.grid == s.grid
    ensures |w'.arena| == |w.arena| + (if s.baby.Some? then 1 else 0)
    ensures w'.arena[w.fishes[i]] == s.fish
    ensures forall k :: 0 <= k < |w.arena| && k != w.fishes[i] ==> w'.arena[k] == w.arena[k]
    ensures s.baby.Some? ==> w'.arena[|w.arena|] == s.baby.value
    ensures w'.fishes == w.fishes + (if s.baby.Some? then [|w.arena|] else [])
  {
    var w1 := w.(arena := w.arena[w.fishes[i] := s.fish], grid := s.grid);
    RefiledOk(w, i, s);
    if s.baby.Some? then
      NewcomerOk(w1, s.baby.value);
      w1.(arena := w1.arena + [s.baby.value], fishes := w1.fishes + [|w1.arena|])
    else
      w1
  }

  lemma RefiledOk(w: World, i: nat, s: FishBoid.Step)
    requires WorldOk(w) && i < |w.fishes| && StepFits(w, i, s)
    ensures WorldOk(w.(arena := w.arena[w.fishes[i] := s.fish], grid := s.grid))
  {
    RefileKeepsFiled(w.grid, w.arena, w.fishes, w.predator.pos, w.fishes[i], s.fish);
  }

  lemma NewcomerOk(w: World, baby: Fish)
    requires WorldOk(w) && InRange(baby.genes)
    ensures WorldOk(w.(arena := w.arena + [baby], fishes := w.fishes + [|w.arena|]))
  {
    RefsBelowGrows(w.grid, |w.arena|, |w.arena| + 1);
    assert forall j :: 0 <= j < |w.fishes| ==> w.fishes[j] != |w.arena|;
    NewcomerKeepsFiled(w.grid, w.arena, w.fishes, w.predator.pos, baby);
  }

  /** A starved fish: wiped from every cell, removed from the list, counted
      and recorded with the generation exactly as main.py computes it for
      starvation (`StarvedGenerationAsWritten`). */
  function Bury(w: World, i: nat): (w': World)
    requires WorldOk(w) && i < |w.fishes|
    ensures WorldOk(w')
    ensures Accounted(w) ==> Accounted(w')
    ensures w'.time == w.time && w'.eaten == w.eaten && w'.starved == w.starved + 1 && w'.arena == w.arena
    ensures w'.foods == w.foods && w'.predator == w.predator
    ensures w'.records == w.records
      + [Record(StarvedGenerationAsWritten(w.time, w.arena[w.fishes[i]].age), w.arena[w.fishes[i]].age / TicksPerSecond)]
    ensures w'.fishes == w.fishes[..i] + w.fishes[i + 1..]
    ensures w'.grid == WipeFish(w.grid, FishRef(w.fishes[i]))
  {
    var id := w.fishes[i];
    WipedOk(w, id);
    var w1 := w.(grid := WipeFish(w.grid, FishRef(id)));
    DroppedOk(w1, i);
    var age := w.arena[id].age;
    w1.(fishes := RemoveFirst(w.fishes, id), starved := w.starved + 1,
        records := w.records + [Record(StarvedGenerationAsWritten(w.time, age), age / TicksPerSecond)])
  }

  /** Wiping a fish of the arena keeps the invariant and leaves the fish
      filed nowhere. */
  lemma WipedOk(w: World, id: nat)
    requires WorldOk(w) && id < |w.arena|
    ensures WorldOk(w.(grid := WipeFish(w.grid, FishRef(id))))
    ensures Unfiled(WipeFish(w.grid, FishRef(id)), FishRef(id))
  {
    WipeKeepsRefs(w.grid, FishRef(id), |w.arena|);
    WipeKeepsFiled(w.grid, w.arena, w.fishes, w.predator.pos, id);
  }

  /** A listed fish filed nowhere can leave the list. */
  lemma DroppedOk(w: World, i: nat)
    requires WorldOk(w) && i < |w.fishes| && Unfiled(w.grid, FishRef(w.fishes[i]))
    ensures WorldOk(w.(fishes := RemoveFirst(w.fishes, w.fishes[i])))
    ensures RemoveFirst(w.fishes, w.fishes[i]) == w.fishes[..i] + w.fishes[i + 1..]
  {
    RemoveFirstDistinct(w.fishes, i);
    DropKeepsFiled(w.grid, w.arena, w.fishes, w.predator.pos, i);
    var f' := RemoveFirst(w.fishes, w.fishes[i]);
    assert forall j :: 0 <= j < |f'| ==> f'[j] in w.fishes;
  }

  /** `Bury` with the starvation statistic corrected to the birth epoch, the
      formula the meal statistic uses: the same world, except that the new
      record's generation is the 2700-tick epoch of the fish's birth tick. */
  function BuryCorrected(w: World, i: nat): (w': World)
    requires WorldOk(w) && i < |w.fishes|
    ensures WorldOk(w')
    ensures w' == Bury(w, i).(records := w'.records)
    ensures |w'.records| == |w.records| + 1 && w'.records[..|w.records|] == w.records
    ensures var age := w.arena[w.fishes[i]].age; var rec := w'.records[|w.records|];
      && rec.ageSeconds == age / TicksPerSecond
      && rec.generation * TicksPerGeneration <= w.time - age < (rec.generation + 1) * TicksPerGeneration
  {
    var age := w.arena[w.fishes[i]].age;
    GenerationIsBirthEpoch(w.time, age);
    Bury(w, i).(records := w.records + [Record(Generation(w.time, age), age / TicksPerSecond)])
  }

  /** The list entry of the child a step appends, if any. */
  function Born(w: World, s: FishBoid.Step): seq<nat>
  {
    if s.baby.Some? then [|w.arena|] else []
  }

  /** The arena only grows, every existing fish keeps its marks, and every
      newcomer is unmarked. */
  predicate MarksKept(w: World, w': World)
  {
    && |w.arena| <= |w'.arena|
    && (forall k :: 0 <= k < |w.arena| ==>
         w'.arena[k].isElder == w.arena[k].isElder && w'.arena[k].isJuvenile == w.arena[k].isJuvenile)
    && (forall k :: |w.arena| <= k < |w'.arena| ==> !w'.arena[k].isElder && !w'.arena[k].isJuvenile)
  }

  /** What the fish pass leaves alone or only lets grow: the clock, the
      meal count, the food and the predator stay; the starvation count only
      grows; conservation and the marks are kept. */
  predicate PassFrame(w: World, w': World)
  {
    && w'.time == w.time && w'.eaten == w.eaten && w'.foods == w.foods && w'.predator == w.predator
    && w.starved <= w'.starved && (Accounted(w) ==> Accounted(w')) && MarksKept(w, w')
  }

  lemma PassFrameTrans(w1: World, w2: World, w3: World)
    requires PassFrame(w1, w2) && PassFrame(w2, w3)
    ensures PassFrame(w1, w3)
  {
  }

  /** The list bookkeeping after the step `s` of the fish at list position
      `i`: the updated fish and its child stored, the child appended to the
      list, and, if the fish starved, its removal, count and record. */
  function Settle(w: World, i: nat, s: FishBoid.Step): (w': World)
    requires WorldOk(w) && i < |w.fishes| && StepFits(w, i, s)
    ensures WorldOk(w') && PassFrame(w, w')
  {
    var w1 := Adopt(w, i, s);
    assert MarksKept(w, w1);
    if s.fish.hunger <= 0 then Bury(w1, i) else w1
  }

  /** What the bookkeeping does to the list and the counters: the child is
      appended; a starved fish is cut out of its position and counted. */
  lemma SettleEffect(w: World, i: nat, s: FishBoid.Step)
    requires WorldOk(w) && i < |w.fishes| && StepFits(w, i, s)
    ensures var w' := Settle(w, i, s);
      && w'.starved == w.starved + (if s.fish.hunger <= 0 then 1 else 0)
      && |w'.arena| == |w.arena| + |Born(w, s)|
      && (s.fish.hunger > 0 ==> w'.fishes == w.fishes + Born(w, s))
      && (s.fish.hunger <= 0 ==> w'.fishes == w.fishes[..i] + w.fishes[i + 1..] + Born(w, s))
  {
    var w1 := Adopt(w, i, s);
    assert w1.fishes == w.fishes + Born(w, s);
    if s.fish.hunger <= 0 {
      var w2 := Bury(w1, i);
      assert Settle(w, i, s) == w2;
      CutAppended(w.fishes, Born(w, s), i);
    } else {
      assert Settle(w, i, s) == w1;
    }
  }

  /** Cutting position `i` out of a list with a tail appended is cutting it
      out of the list and then appending the tail. */
  lemma CutAppended(a: seq<nat>, born: seq<nat>, i: nat)
    requires i < |a|
    ensures (a + born)[..i] + (a + born)[i + 1..] == a[..i] + a[i + 1..] + born
  {
    SliceAppend(a, born, i);
    SliceAppend(a, born, i + 1);
  }

  /** The list iterator keeps its position when an element is removed, so
      after a fish starves, the fish that followed it moves into the position
      just processed and the loop goes on with the one after it. */
  lemma StarvationSkipsNext(w: World, i: nat, s: FishBoid.Step)
    requires WorldOk(w) && i + 1 < |w.fishes| && StepFits(w, i, s) && s.fish.hunger <= 0
    ensures Settle(w, i, s).fishes[..i + 1] == w.fishes[..i] + [w.fishes[i + 1]]
    ensures i + 2 < |w.fishes| ==> Settle(w, i, s).fishes[i + 1] == w.fishes[i + 2]
  {
    SettleEffect(w, i, s);
    RemovalShifts(w.fishes, i, Born(w, s));
  }

  lemma RemovalShifts(fishes: seq<nat>, i: nat, born: seq<nat>)
    requires i + 1 < |fishes|
    ensures (fishes[..i] + fishes[i + 1..] + born)[..i + 1] == fishes[..i] + [fishes[i + 1]]
    ensures i + 2 < |fishes| ==> (fishes[..i] + fishes[i + 1..] + born)[i + 1] == fishes[i + 2]
  {
    var f := fishes[..i] + fishes[i + 1..] + born;
    assert f[..i] == fishes[..i];
    assert f[..i + 1] == f[..i] + [f[i]];
  }

  /** The loop `for fish in fishes` from list position `i`, which also
      reaches the children appended while it runs. Each update consumes the
      next element of `inputs`; if they run out first the pass is not
      defined (`None`). */
  function FishPass(w: World, i: nat, inputs: seq<Inputs>): (r: Option<World>)
    requires WorldOk(w) && forall j :: 0 <= j < |inputs| ==> ValidInputs(inputs[j])
    ensures r.Some? ==> WorldOk(r.value) && PassFrame(w, r.value)
    decreases |inputs|
  {
    if i >= |w.fishes| then Some(w)
    else if |inputs| == 0 then None
    else
      var s := FishStep(w, i, inputs[0]);
      FishStepFits(w, i, inputs[0]);
      var w1 := Settle(w, i, s);
      var r := FishPass(w1, i + 1, inputs[1..]);
      if r.Some? then PassFrameTrans(w, w1, r.value); r else r
  }

  // ---------------------------------------------------------------------
  // The predator's meal
  // ---------------------------------------------------------------------

  /** The two lengths the predator computes, measured on this world: the
      distance to the nearest visible fish and the speed before limiting. */
  predicate Measured(w: World, dist: real, speed: real)
    requires WorldOk(w)
  {
    && 0.0 <= dist && dist * dist == ClosestSq(w.predator, w.grid, w.arena)
    && 0.0 <= speed && speed * speed == NormSq(PreLimit(w.predator, w.grid, w.arena, dist))
  }

  /** The predator's tick keeps the invariant. A fish it eats was on the
      population list, since only filed fish are visible and the filing
      lists every filed fish, and the fish is then filed nowhere. */
  lemma HuntedOk(w: World, dist: real, speed: real)
    requires WorldOk(w) && Measured(w, dist, speed)
    ensures var h := PredatorBoid.Update(w.predator, w.grid, w.arena, dist, speed);
      && WorldOk(w.(grid := h.grid, predator := h.pred))
      && (h.eaten.Some? ==> h.eaten.value in w.fishes && Unfiled(h.grid, FishRef(h.eaten.value)))
  {
    var h := PredatorBoid.Update(w.predator, w.grid, w.arena, dist, speed);
    PredatorBoid.UpdateKeepsArenaRefs(w.predator, w.grid, w.arena, dist, speed);
    if h.eaten.Some? {
      MealFiled(w, dist, speed);
    } else {
      MoveFiled(w, dist, speed);
    }
  }

  lemma MealFiled(w: World, dist: real, speed: real)
    requires WorldOk(w) && Measured(w, dist, speed)
    requires PredatorBoid.Update(w.predator, w.grid, w.arena, dist, speed).eaten.Some?
    ensures var h := PredatorBoid.Update(w.predator, w.grid, w.arena, dist, speed);
      && h.grid.Usable() && Filed(h.grid, w.arena, w.fishes, h.pred.pos)
      && h.eaten.value in w.fishes && Unfiled(h.grid, FishRef(h.eaten.value))
  {
    var h := PredatorBoid.Update(w.predator, w.grid, w.arena, dist, speed);
    var e := h.eaten.value;
    WipeKeepsFiled(w.grid, w.arena, w.fishes, w.predator.pos, e);
    PredatorBoid.EatsIffWithinReach(w.predator, w.grid, w.arena, dist, speed);
    UnfiledInvisible(w.grid, w.predator.pos, VisionRange, FishRef(e));
  }

  lemma MoveFiled(w: World, dist: real, speed: real)
    requires WorldOk(w) && Measured(w, dist, speed)
    requires PredatorBoid.Update(w.predator, w.grid, w.arena, dist, speed).eaten.None?
    ensures var h := PredatorBoid.Update(w.predator, w.grid, w.arena, dist, speed);
      h.grid.Usable() && Filed(h.grid, w.arena, w.fishes, h.pred.pos)
  {
    var h := PredatorBoid.Update(w.predator, w.grid, w.arena, dist, speed);
    PredatorBoid.MoveKeepsPredatorFiled(w.predator, w.grid, w.arena, dist, speed);
    forall k | 0 <= k < |w.arena|
      ensures Unfiled(h.grid, FishRef(k)) || (k in w.fishes && FiledOnceAt(h.grid, FishRef(k), w.arena[k].pos))
    {
      SameCountsSameFiling(w.grid, h.grid, FishRef(k));
    }
  }

  /** The eaten fish at list position `i`, already filed nowhere, leaves
      the list and is counted and recorded. */
  function Devour(w: World, i: nat): (w': World)
    requires WorldOk(w) && i < |w.fishes| && Unfiled(w.grid, FishRef(w.fishes[i]))
    ensures WorldOk(w')
    ensures Accounted(w) ==> Accounted(w')
    ensures w'.time == w.time && w'.eaten == w.eaten + 1 && w'.starved == w.starved
    ensures w'.arena == w.arena && w'.foods == w.foods && w'.grid == w.grid && w'.predator == w.predator
    ensures w.fishes[i] !in w'.fishes && multiset(w'.fishes) == multiset(w.fishes) - multiset{w.fishes[i]}
    ensures w'.records == w.records
      + [Record(Generation(w.time, w.arena[w.fishes[i]].age), w.arena[w.fishes[i]].age / TicksPerSecond)]
  {
    var id := w.fishes[i];
    DroppedOk(w, i);
    RemoveFirstDistinct(w.fishes, i);
    var age := w.arena[id].age;
    w.(fishes := RemoveFirst(w.fishes, id), eaten := w.eaten + 1,
       records := w.records + [Record(Generation(w.time, age), age / TicksPerSecond)])
  }

  /** The predator's tick and its consequence in main.py: an eaten fish
      still on the list is removed from it, counted and recorded. The
      predator is defined only for the true lengths (`None` otherwise).
      Every fish the predator eats is on the list, so every meal is counted,
      and the eaten fish is left in no cell of the grid. */
  method PredatorPhase(w: World, dist: real, speed: real) returns (r: Option<World>)
    requires WorldOk(w)
    ensures r.Some? <==> Measured(w, dist, speed)
    ensures r.Some? ==> WorldOk(r.value)
    ensures r.Some? && Accounted(w) ==> Accounted(r.value)
    ensures r.Some? ==>
      r.value.arena == w.arena && r.value.time == w.time && r.value.starved == w.starved && r.value.foods == w.foods
    ensures r.Some? ==> w.eaten <= r.value.eaten <= w.eaten + 1
    ensures r.Some? && r.value.eaten == w.eaten + 1 ==>
      var e := PredatorBoid.Update(w.predator, w.grid, w.arena, dist, speed).eaten;
      e.Some? && e.value in w.fishes && e.value !in r.value.fishes
      && multiset(r.value.fishes) == multiset(w.fishes) - multiset{e.value}
      && r.value.records == w.records + [Record(Generation(w.time, w.arena[e.value].age), w.arena[e.value].age / TicksPerSecond)]
    ensures r.Some? && r.value.eaten == w.eaten ==> r.value.fishes == w.fishes && r.value.records == w.records
    ensures r.Some? ==>
      var h := PredatorBoid.Update(w.predator, w.grid, w.arena, dist, speed);
      && r.value.grid == h.grid && r.value.predator == h.pred
      && (r.value.eaten == w.eaten + 1 <==> h.eaten.Some?)
      && (h.eaten.Some? ==> forall row, col :: r.value.grid.InBounds(row, col) ==>
            FishRef(h.eaten.value) !in r.value.grid.cells[row][col])
  {
    if !Measured(w, dist, speed) {
      return None;
    }
    var h := PredatorBoid.Update(w.predator, w.grid, w.arena, dist, speed);
    HuntedOk(w, dist, speed);
    var w1 := w.(grid := h.grid, predator := h.pred);
    if h.eaten.Some? && h.eaten.value in w.fishes {
      r := Some(Devour(w1, FirstIndex(w.fishes, h.eaten.value)));
    } else {
      r := Some(w1);
    }
  }

  // ---------------------------------------------------------------------
  // The tick
  // ---------------------------------------------------------------------

  /** The outside inputs of a tick: one `Inputs` per fish update, in order,
      and the predator's two lengths. */
  datatype TickInputs = TickInputs(fishInputs: seq<Inputs>, dist: real, speed: real)

  /** A tick's result and whether the loop keeps running afterwards. */
  datatype TickOutcome = TickOutcome(world: World, running: bool)

  /** The marks the start of a tick sets on `w`, as found in `w1`. */
  predicate AgesMarked(w: World, w1: World)
  {
    && |w1.arena| == |w.arena|
    && forall k :: 0 <= k < |w.arena| ==>
      && w1.arena[k].isElder == (w.arena[k].isElder || k in Elders(w.fishes))
      && w1.arena[k].isJuvenile == (w.arena[k].isJuvenile || k in Juveniles(w.fishes))
  }

  /** The clock and the marks: the first tenth of the list become elders
      for good, the last fifth juveniles for this tick. */
  function MarkAges(w: World): (w1: World)
    requires WorldOk(w)
    ensures WorldOk(w1) && (Accounted(w) ==> Accounted(w1))
    ensures w1 == w.(time := w.time + 1, arena := w1.arena) && AgesMarked(w, w1)
    ensures forall k :: 0 <= k < |w.arena| ==>
      w1.arena[k] == w.arena[k].(isElder := w1.arena[k].isElder, isJuvenile := w1.arena[k].isJuvenile)
  {
    var arena1 := MarkJuveniles(MarkElders(w.arena, Elders(w.fishes)), Juveniles(w.fishes), true);
    var w1 := w.(time := w.time + 1, arena := arena1);
    SamePlacesOk(w, w1);
    w1
  }

  /** A world whose fish keep their positions and genes, with the same
      grid, list and predator, keeps the invariant. */
  lemma SamePlacesOk(w: World, w': World)
    requires WorldOk(w)
    requires w'.grid == w.grid && w'.fishes == w.fishes && w'.predator == w.predator && |w'.arena| == |w.arena|
    requires forall k :: 0 <= k < |w.arena| ==> w'.arena[k].pos == w.arena[k].pos && w'.arena[k].genes == w.arena[k].genes
    ensures WorldOk(w')
  {
  }

  /** Every food point in turn feeds the hungry fish around it. */
  function FeedPhase(w: World): (w1: World)
    requires WorldOk(w)
    ensures WorldOk(w1) && (Accounted(w) ==> Accounted(w1))
    ensures w1 == w.(arena := w1.arena, foods := w1.foods) && |w1.foods| == |w.foods|
    ensures FedFrom(w.arena, w1.arena) && MarksKept(w, w1)
  {
    var fed := FeedAll(w.foods, w.grid, w.arena);
    w.(arena := fed.1, foods := fed.0)
  }

  /** The start of a tick: clock, marks, food. */
  function Prelude(w: World): (w1: World)
    requires WorldOk(w)
    ensures WorldOk(w1) && (Accounted(w) ==> Accounted(w1)) && AgesMarked(w, w1)
    ensures w1.time == w.time + 1 && w1.fishes == w.fishes && w1.eaten == w.eaten && w1.starved == w.starved
  {
    var w0 := MarkAges(w);
    var w1 := FeedPhase(w0);
    MarkedThenKept(w, w0, w1);
    w1
  }

  lemma MarkedThenKept(w: World, w0: World, w1: World)
    requires AgesMarked(w, w0) && MarksKept(w0, w1) && |w1.arena| == |w0.arena|
    ensures AgesMarked(w, w1)
  {
  }

  /** `w1` is `w` with the juvenile mark of every listed fish cleared. */
  predicate Cleared(w: World, ids: seq<nat>, w1: World)
  {
    && w1 == w.(arena := w1.arena) && |w1.arena| == |w.arena|
    && forall k :: 0 <= k < |w.arena| ==>
      w1.arena[k] == if k in ids then w.arena[k].(isJuvenile := false) else w.arena[k]
  }

  /** Clear the juvenile mark of every listed fish. */
  function Unmark(w: World, ids: seq<nat>): (w1: World)
    requires WorldOk(w) && forall j :: 0 <= j < |ids| ==> ids[j] < |w.arena|
    ensures WorldOk(w1) && (Accounted(w) ==> Accounted(w1)) && Cleared(w, ids, w1)
  {
    w.(arena := MarkJuveniles(w.arena, ids, false))
  }

  /** The fish pass from the head of the list, then the predator. */
  method Play(w: World, inp: TickInputs) returns (r: Option<World>)
    requires WorldOk(w) && forall j :: 0 <= j < |inp.fishInputs| ==> ValidInputs(inp.fishInputs[j])
    ensures r.Some? ==> WorldOk(r.value) && (Accounted(w) ==> Accounted(r.value)) && MarksKept(w, r.value)
    ensures r.Some? ==>
      r.value.time == w.time && w.eaten <= r.value.eaten <= w.eaten + 1 && w.starved <= r.value.starved
  {
    var w2 := FishPass(w, 0, inp.fishInputs);
    if w2.None? {
      return None;
    }
    r := PredatorPhase(w2.value, inp.dist, inp.speed);
  }

  /** The rest of a tick after its start `w1` (from `w`): the fish pass,
      the predator, and the clearing of this tick's juvenile marks. */
  method MainPhase(w: World, w1: World, inp: TickInputs) returns (r: Option<World>)
    requires WorldOk(w) && WorldOk(w1) && AgesMarked(w, w1)
    requires forall j :: 0 <= j < |inp.fishInputs| ==> ValidInputs(inp.fishInputs[j])
    ensures r.Some? ==> WorldOk(r.value) && (Accounted(w1) ==> Accounted(r.value)) && TickMarks(w, r.value)
    ensures r.Some? ==>
      r.value.time == w1.time && w1.eaten <= r.value.eaten <= w1.eaten + 1 && w1.starved <= r.value.starved
  {
    var w3 := Play(w1, inp);
    if w3.None? {
      return None;
    }
    var w4 := Unmark(w3.value, Juveniles(w.fishes));
    TickMarksHold(w, w1, w3.value, w4);
    return Some(w4);
  }

  /** One pass of the `while running` loop, without drawing. `running`
      turns false when the population list was empty at the start of the
      tick. `None` when the inputs do not fit (too few fish inputs, or
      predator lengths that are not the true ones). */
  method Tick(w: World, inp: TickInputs) returns (r: Option<TickOutcome>)
    requires WorldOk(w) && forall j :: 0 <= j < |inp.fishInputs| ==> ValidInputs(inp.fishInputs[j])
    ensures r.Some? ==> WorldOk(r.value.world)
    ensures r.Some? && Accounted(w) ==> Accounted(r.value.world)
    ensures r.Some? ==> (r.value.running <==> |w.fishes| > 0)
    ensures r.Some? ==> r.value.world.time == w.time + 1
    ensures r.Some? ==> w.eaten <= r.value.world.eaten <= w.eaten + 1 && w.starved <= r.value.world.starved
    ensures r.Some? ==> TickMarks(w, r.value.world)
  {
    var w1 := Prelude(w);
    var w4 := MainPhase(w, w1, inp);
    if w4.None? {
      return None;
    }
    return Some(TickOutcome(w4.value, |w.fishes| > 0));
  }

  /** The `while running` loop, one element of `ticks` per pass, until
      `running` turns false or the inputs run out or stop fitting. The
      world it stops at keeps the structural invariant, conservation and the
      absence of juvenile marks, and its counters and clock only grow. */
  method Run(w: World, ticks: seq<TickInputs>) returns (w': World)
    requires WorldOk(w)
    requires forall t, j :: 0 <= t < |ticks| && 0 <= j < |ticks[t].fishInputs| ==> ValidInputs(ticks[t].fishInputs[j])
    ensures WorldOk(w')
    ensures Accounted(w) ==> Accounted(w')
    ensures NoJuveniles(w.arena) ==> NoJuveniles(w'.arena)
    ensures w.time <= w'.time <= w.time + |ticks|
    ensures w.eaten <= w'.eaten && w.starved <= w'.starved && |w.arena| <= |w'.arena|
  {
    w' := w;
    var t := 0;
    while t < |ticks|
      invariant 0 <= t <= |ticks|
      invariant WorldOk(w') && (Accounted(w) ==> Accounted(w')) && (NoJuveniles(w.arena) ==> NoJuveniles(w'.arena))
      invariant w.time + t == w'.time
      invariant w.eaten <= w'.eaten && w.starved <= w'.starved && |w.arena| <= |w'.arena|
    {
      var r := Tick(w', ticks[t]);
      if r.None? {
        return;
      }
      w' := r.value.world;
      if !r.value.running {
        return;
      }
      t := t + 1;
    }
  }

  /** The marks a tick leaves: the arena only grows, the first tenth of the
      list at the start of the tick (and every earlier elder) are elders,
      and when nobody was a juvenile before the tick, nobody is after it. */
  predicate TickMarks(w: World, w': World)
  {
    && |w.arena| <= |w'.arena|
    && (forall k :: 0 <= k < |w.arena| && (w.arena[k].isElder || k in Elders(w.fishes)) ==> w'.arena[k].isElder)
    && (NoJuveniles(w.arena) ==> NoJuveniles(w'.arena))
  }

  lemma TickMarksHold(w: World, w1: World, w3: World, w4: World)
    requires AgesMarked(w, w1) && MarksKept(w1, w3) && Cleared(w3, Juveniles(w.fishes), w4)
    ensures TickMarks(w, w4)
  {
  }
}
